=== FILE: README.md ===
# esqb template resolution, modelled in Dafny

`esqb` builds Elasticsearch query documents from class-level templates. A query
definition (`BaseQuery`) has four slots, `query`, `size`, `aggs` and `sort`, each a
JSON-like tree in which `Variable` placeholders may stand as values or as mapping
keys. `get_es_query(data)` resolves a definition in three steps:

1. **Filters per slot.** The definition's ordered `QueryFilter`s bound to a slot
   rewrite that slot's tree one after the other. A filter applies only when every
   variable it declares is named in `data`; otherwise an optional filter is skipped
   and a required one fails.
2. **Substitution.** `replace_variables` replaces every placeholder with the data
   value under its name, or its default, passed through its builder when it has
   one. A required variable with no data value fails the whole resolution, and so
   does a variable key whose value is a list or mapping, which Python cannot hash.
3. **Assembly.** The four resolved slots form the document
   `{query, size, aggs, sort}`.

Alongside resolution, `find_all_variables` discovers the placeholders (the filters'
first, softened to optional for optional filters, then the slots' in traversal
order), `full_query` shows the unresolved definition, and `dotget` navigates a
document by a dotted path. The older `es_query_builder.Variable` is the same
placeholder without a builder.

## Layout

| file | module | models |
|---|---|---|
| results.dfy | `Results` | `Option`, `Result` and the error cases (a missing required variable, an unsatisfied required filter, an unhashable variable key, unbounded recursion) |
| json.dfy | `Json` | JSON values with objects as ordered `(key, value)` pairs; key lookup |
| variable.dfy | `Variables` | `esqb.variable.Variable`: constructor, `copy`, `value_from_dict`, `__str__` |
| legacy_variable.dfy | `LegacyVariables` | `es_query_builder.variable.Variable` and its agreement with the current one |
| tree.dfy | `Trees` | template trees, variable discovery and occurrences, variable-free and `None`-free trees |
| utils.dfy | `Substitution` | `replace_variables` |
| queryfilter.dfy | `QueryFilters` | `QueryFilter`: `can_apply`, `__call__`, `apply`, `variables` |
| query.dfy | `Queries` | `BaseQuery`: instantiation, `_filtered`, `get_es_query`, `find_all_variables` as intended and as written, `full_query` |
| dotpath.dfy | `DotPaths` | `dotget` and the `str.split` it relies on |
| scenarios.dfy | `Scenarios` | the literal scenarios of the two test files |

Builders and `apply` overrides are arbitrary Python callables. A variable names its
builder (`builder: Option<BuilderId>`) and a filter names its override
(`Identity | Custom(id)`); what each name computes is a function parameter
(`build`, `rewrite`) of the operations that run them, so every property holds
whatever the builders and overrides do.

Where the code and its evident design disagree, the model follows the design:

- `find_all_variables` calls `_filter.get_variables()` and `_filtered` reads
  `_filter.query_field` (esqb/query.py:146, 107), yet `QueryFilter` defines neither,
  so any definition with a filter would stop with `AttributeError`. The model reads
  `get_variables()` as the `variables` property (esqb/queryfilter.py:33-44) and gives
  each filter a `slot`, `query` by default, as tests/test_queryfilter.py:84-89 expects.
- `__call__` invokes `apply(query)` (esqb/queryfilter.py:23), while the tests override
  `apply(self, query, data)`. The model's override receives the tree and the data.
- A required filter that cannot apply formats its error with `self.__name__`, which
  an instance lacks. The model reports `RequiredFilterUnsatisfied`.
- The filter tests declare `variables` as a plain class attribute, which hides the
  property and leaves `_variables` empty. The model keeps one declared list, read by
  both `can_apply` and `variables`, as the class documentation describes.

## Model

| member | source | states |
|---|---|---|
| Variables.NewVar | esqb/variable.py:16-33 | every attribute is the argument passed; absent serializer options become the empty mapping |
| Variables.NewVarDefaults | esqb/variable.py:16-33 | `Variable(name)` has default None, type str, not required, help "Unknown variable", no serializer class or builder |
| Variables.Copy | esqb/variable.py:35-44 | `copy(**kw)` takes each overridden attribute from `kw` and every other one from the original |
| Variables.CopyNoOverrides | esqb/variable.py:42-44 | `copy()` with no arguments is field-wise equal to the original |
| Variables.CopyRequiredOnly | esqb/variable.py:42-44 | `copy(required=b)` differs from the original in `required` alone |
| Variables.CopyIdempotent | esqb/variable.py:35-44 | copying again with the same overrides changes nothing more |
| Variables.ValueFromDict | esqb/variable.py:46-62 | fails, naming the variable, exactly when it is required and absent; otherwise the data value if present, else the default, passed once through the builder when one is set |
| Variables.ValueFromNoData | esqb/variable.py:54-55 | no data behaves as an empty mapping: a required variable fails, an optional one without builder gives its default |
| Variables.ValueFromDictLocal | esqb/variable.py:54-62 | the result depends on the data only under the variable's own name |
| Variables.Display | esqb/variable.py:64-76 | the placeholder starts with `${name:` and ends with `}`; a required variable prints `${name:?Required. help}` |
| Variables.DisplayReadsBack | esqb/variable.py:64-76 | the variable's name, and whether it is required, can be read back from its placeholder |
| LegacyVariables.NewLegacyVar | es_query_builder/variable.py:15-29 | every attribute is the argument passed, with `type=int` by default |
| LegacyVariables.Copy | es_query_builder/variable.py:31-42 | `copy(**kw)` takes each overridden attribute from `kw` and every other one from the original |
| LegacyVariables.ValueFromDict | es_query_builder/variable.py:44-60 | fails exactly when required and absent; otherwise the data value or the default, untransformed |
| LegacyVariables.Display | es_query_builder/variable.py:62-76 | a required variable prints `${name:?Required. help}` |
| LegacyVariables.ValueFromDictAgrees | es_query_builder/variable.py:44-60 | the legacy lookup equals the current one for the same variable without a builder, whatever the builders mean |
| LegacyVariables.CopyAndDisplayAgree | es_query_builder/variable.py:31-76 | the legacy `copy` and `__str__` agree with the current ones on builder-less variables |
| LegacyVariables.ConstructorDefaults | es_query_builder/variable.py:15-22 | the two constructors differ only in the default type, int against str |
| Trees.TreeVars | esqb/query.py:152-166 | a bare variable is found alone and a scalar holds none; every variable of each list element, and of each entry's key and value, is found |
| Trees.OccsVars | esqb/query.py:152-166 | the occurrences of a tree, each marked as key or value, are its discovered variables in the same order |
| Trees.VarFreeIffNoVars | esqb/query.py:152-166 | discovery finds no variable exactly in the trees without placeholders |
| Trees.ListVarsAppend | esqb/query.py:152-157 | discovery over a list visits its elements left to right, without deduplication |
| Trees.EntryVarsAppend | esqb/query.py:158-165 | discovery over a mapping visits its entries in order |
| Substitution.ResolveKey | esqb/utils.py:12-15 | a literal key stays; a variable key becomes its resolved value, fails as that value does, and fails as unhashable when the value is a list or mapping |
| Substitution.Resolve | esqb/utils.py:4-30 | a bare variable resolves to its value; scalars stay; a list resolves position by position to a list of the same length; a mapping resolves entry by entry; it succeeds exactly when every part does |
| Substitution.ResolveList | esqb/utils.py:21-27 | a list resolves to one of the same length, each element resolved in place, failing exactly when an element fails |
| Substitution.ResolveEntry | esqb/utils.py:11-20 | an entry's key is resolved, then its value; the entry fails exactly when either does |
| Substitution.ResolveEntries | esqb/utils.py:9-20 | a mapping resolves to as many entries, each resolved in place, failing exactly when an entry fails |
| Substitution.ResolveVarFree | esqb/utils.py:9-30 | a tree without placeholders resolves to the JSON value it spells, whatever the data |
| Substitution.ResolveEmbedded | esqb/utils.py:9-30 | plain JSON written as a template resolves back to itself |
| Substitution.OccError | esqb/utils.py:12-18 | an occurrence of a required variable absent from the data fails, naming it; any other occurrence fails exactly when it is a key whose value is a list or mapping |
| Substitution.ResolveFailsOnFirstFailure | esqb/utils.py:12-29 | resolution fails exactly when some variable occurrence of the tree fails, reporting the first in traversal order; there is no partial result |
| Substitution.ResolveFailsOnMissing | esqb/utils.py:12-29 | a required variable absent from the data fails resolution wherever it stands in the tree |
| Substitution.ResolveLocal | esqb/utils.py:4-30 | two data maps that agree on the tree's variable names resolve it alike |
| QueryFilters.CanApply | esqb/queryfilter.py:50-62 | holds exactly when every declared variable's name is in the data, whatever its `required` flag |
| QueryFilters.Apply | esqb/queryfilter.py:64-68 | the inherited `apply` returns its input |
| QueryFilters.Call | esqb/queryfilter.py:17-31 | an applicable filter returns `apply` of its input; an inapplicable optional one returns the input; it fails, with the filter error, exactly when required and some declared name is absent |
| QueryFilters.Exposed | esqb/queryfilter.py:33-44 | `variables` has the declared keys in order; a required filter's copies equal the declared variables; an optional filter's differ only in `required=False` |
| QueryFilters.OptionalFilterExposesOptionalVars | esqb/queryfilter.py:40-44 | an optional filter exposes no required variable |
| QueryFilters.OptionalFilterSoftens | esqb/queryfilter.py:40-44 | an optional filter exposes no required variable and its call never fails |
| QueryFilters.NoDeclaredVariablesAlwaysApply | esqb/queryfilter.py:14-68 | a filter declaring nothing always applies; a bare filter leaves its input unchanged |
| Queries.Instantiate | esqb/query.py:18-33 | every slot and the filter list are the definition's when it defines them, and otherwise the defaults: size 0, empty `query` and `aggs`, no filters, empty `sort` |
| Queries.FreshInstanceDefaults | esqb/query.py:29-33 | an empty definition gives size 0, empty `query` and `aggs`, no filters and an empty `sort` |
| Queries.RunFilters | esqb/query.py:103-109 | with no filter on the slot the tree is returned unchanged; with only optional ones it never fails; a failure comes from a required filter on the slot that cannot apply |
| Queries.RunFiltersAppend | esqb/query.py:106-108 | filters run in list order, each consuming the previous one's output |
| Queries.RunFiltersOnSlot | esqb/query.py:106-108 | only the filters bound to the slot take part |
| Queries.Filtered | esqb/query.py:103-109 | a slot with no filter bound to it comes back unchanged; its only failure is an unsatisfied required filter |
| Queries.OtherSlotFilterIgnored | esqb/query.py:105-109 | inserting a filter bound to another slot anywhere in the list leaves the slot's result as it was |
| Queries.ResolveSlot | esqb/query.py:100 | a slot whose required filter cannot apply fails with the filter error; otherwise its filtered tree is substituted; a slot without filters is substituted as defined |
| Queries.GetEsQuery | esqb/query.py:89-101 | succeeds exactly when every slot resolves; the document has exactly the keys query, size, aggs, sort, each holding that slot's filtered and substituted tree; a failure is the first failing slot's |
| Queries.FilterVars | esqb/query.py:143-147 | holds exactly the variables some filter exposes |
| Queries.FilterVarsAppend | esqb/query.py:143-147 | the filters' variables come filter after filter, in list order |
| Queries.FindAllVariables | esqb/query.py:138-150 | the filters' exposed variables (unless excluded), then those of query, aggs, size and sort, in that order |
| Queries.OptionalFiltersExposeOptionalVars | esqb/query.py:142-147 | when every filter is optional, no filter variable that discovery lists is required |
| Queries.FullQuery | esqb/query.py:183-198 | four entries, each slot's unresolved tree under the slot's name |
| Queries.FullQueryVarsInOrder | esqb/query.py:193-198 | the variables of `full_query` are those of size, query, aggs and sort, in that order |
| Queries.FullQueryVars | esqb/query.py:183-198 | `full_query` holds exactly the variables discovery finds in the slots, as a multiset |
| Queries.FullQueryResolves | esqb/query.py:183-198 | without filters, substituting into `full_query` succeeds exactly when `get_es_query` does |
| Queries.FullQueryAgrees | esqb/query.py:183-198 | without filters, substituted `full_query` and `get_es_query` hold the same value under each slot name |
| Queries.SlotOccs | esqb/query.py:148-150 | the slots' variable occurrences are, in order, the variables discovery lists without filters |
| Queries.NoFiltersFailIffSomeFails | esqb/query.py:96-101 | without filters, resolution fails exactly when some variable that discovery lists fails where it stands: required and absent, or a key whose value is a list or mapping |
| Queries.NoFiltersMissingFails | esqb/query.py:96-101 | without filters, a required variable that discovery lists and the data lacks fails resolution |
| Queries.NoFiltersErrorNamesMissing | esqb/query.py:96-101 | without filters, a failure either names a required variable that discovery lists and the data lacks, or reports an unhashable key |
| Queries.DiscoverAsWritten | esqb/query.py:138-166 | the source's discovery can only fail by exhausting the recursion bound |
| Queries.DiscoverAsWrittenAgrees | esqb/query.py:138-166 | on a template without `None`, the source's discovery ends under every recursion bound and lists exactly what `FindAllVariables` lists |
| Queries.DiscoverAsWrittenDiverges | esqb/query.py:142-165 | on a template holding `None` as a slot, list element or mapping value, the source's discovery exhausts every recursion bound |
| Queries.GetEsQueryAsWritten | esqb/query.py:89-101 | the source's `get_es_query` succeeds only with the intended document and fails only with the intended error or `RecursionError` |
| Queries.GetEsQueryAsWrittenOutcome | esqb/query.py:89-101 | the source's `get_es_query` is the intended one on templates without `None` and raises `RecursionError` on every other, whatever the data |
| DotPaths.Split | esqb/query.py:172 | splitting yields at least one part, no part holds the separator, and joining the parts gives the path back |
| DotPaths.SplitJoin | esqb/query.py:172 | splitting a join of separator-free parts gives the parts back |
| DotPaths.WalkAppend | esqb/query.py:172-173 | walking a key sequence in two pieces is walking the whole |
| Json.Lookup | esqb/query.py:173 | finds a value exactly when the object holds the key, and then the value of the first entry with that key |
| DotPaths.Dotget | esqb/query.py:168-174 | a path without dots is one key lookup |
| DotPaths.DotgetCompose | esqb/query.py:168-174 | `dotget(d, "p.q")` is `dotget(dotget(d, "p"), "q")`, failing where the first part fails |
| DotPaths.DotgetThreeKeys | esqb/query.py:168-174 | `dotget(d, "a.b.c")` is `d["a"]["b"]["c"]`, failing where a key is missing |
| Scenarios.ContainsVar | tests/test_es_query_builder.py:16-23 | discovery finds the variable `aggs` was defined with (in the source the very object, since the subclass's `aggs` shadows the property) |
| Scenarios.CanOverrideVar | tests/test_es_query_builder.py:26-30 | the data value replaces the variable and the other slots keep their defaults |
| Scenarios.AggsOnlyResolves | esqb/query.py:29-33 | a definition with only `aggs` resolves to the default document around its resolved `aggs`, or fails as `aggs` does |
| Scenarios.NoneValueNeverResolves | esqb/query.py:142-165 | with `aggs = {'x': None}` the intended discovery finds nothing and resolution succeeds, while the source's discovery and `get_es_query` raise `RecursionError` |
| Scenarios.ListValuedKeyFails | esqb/utils.py:12-15 | a variable key whose data value is a list fails substitution as unhashable |
| Scenarios.UsesDefaultValue | tests/test_es_query_builder.py:33-43 | an absent optional variable takes its default |
| Scenarios.ThrowsOnMissingRequired | tests/test_es_query_builder.py:46-59 | an absent required variable fails the resolution, naming the variable |
| Scenarios.ComplexQuery | tests/test_es_query_builder.py:62-90 | a variable key and a variable value deep in `aggs` both take their data values |
| Scenarios.OptionalFilterSoftensRequiredVar | tests/test_queryfilter.py:16-30 | an optional filter (explicitly, or by default as in lines 50-63) lists its required variable once, as not required |
| Scenarios.RequiredFilterKeepsRequiredVar | tests/test_queryfilter.py:33-47 | a required filter lists its required variable once, still required |
| Scenarios.FilterRewritesQuery | tests/test_queryfilter.py:66-89 | an optional filter on `query` is skipped while its variable is absent and rewrites `query` to `{"a": "b"}` once present |

## Left out

- Floating-point values: JSON numbers are integers only; `float` survives as a type tag.
- Python values outside JSON (tuples, sets, dict subclasses, arbitrary objects as data values) are not modelled; resolution treats every non-dict, non-list, non-Variable value as a scalar, as the model's `TScalar` does.
- Mapping order: mappings keep insertion order, as CPython 3.6 and 3.7 dicts do, and every order-sensitive contract (`TreeVars`, `FindAllVariables`, `FirstError`, `ResolveFailsOnFirstFailure`) follows it. CPython 3.4 and 3.5 iterate in hash order, so there the variables are discovered, and the first failure is met, in an order the model does not fix.
- The position of a resolved variable key: CPython 3.6 re-inserts it at the end of the mapping, while the model keeps it in place. Mapping equality ignores order, so results compare equal. With a single variable key in a mapping, the later re-visit of the re-inserted key only re-resolves an already resolved value, which comes back unchanged; with two or more, inserting and deleting during `d.items()` can also make the iteration skip entries (below), which the model does not do.
- Substitution.ResolveEntries: a variable key whose resolved value equals another key of the same mapping overwrites that entry, and the `del` that follows (esqb/utils.py:13-14) shrinks the mapping during iteration, so CPython raises `RuntimeError: dictionary changed size during iteration`. The model keeps both entries and succeeds.
- Substitution.ResolveEntries: with two or more variable keys in one mapping, inserting a resolved key can resize the dict while `d.items()` (esqb/utils.py:11-15) iterates over it; CPython 3.6 and 3.7 then pack the entries, dropping the deleted key's slot, and the iterator skips a later entry, whose value stays unresolved and whose missing required variable goes unreported. The model resolves every entry, so it can fail where the source returns a partly resolved mapping.
- Substitution.Resolve: inherits the colliding-key case and the skipped entries of `Substitution.ResolveEntries`.
- Substitution.ResolveFailsOnFirstFailure: follows the model's traversal of every entry; the entries CPython may skip (see `Substitution.ResolveEntries`) are not exempted.
- Substitution.ResolveKey: literal keys are taken as hashable, as the keys of a Python dict literal are.
- CPython 3.8 and later raise `RuntimeError` when a variable key is replaced during iteration; the package targets Python 3.4-3.6, which the model follows.
- Variables.Display: the optional branch prints the default with Python's `str()`, taken as the parameter `show`; `__repr__` depends on `type.__name__` and is not modelled.
- The error messages' text and exception types: errors are the four `Error` cases, naming a missing variable but not the filter or the unhashable value.
- The `_vars` table built at esqb/query.py:96-98 is never read, but building it runs `find_all_variables()`, which never ends on a template holding `None` (see Findings). `Queries.GetEsQueryAsWritten` keeps that step; `Queries.GetEsQuery` and everything built on it model the intended behaviour without it.
- Queries.DiscoverAsWritten: `fuel` bounds the restarts only. Python's recursion limit also stops discovery and substitution on templates nested about a thousand levels deep, which is not modelled.
- Queries.FindAllVariables: the intended discovery; on a template holding `None` as a slot, list element or mapping value, the source's never returns (see Findings).
- Trees.TreeVars: the intended discovery of a tree; the same `None` caveat applies.
- Trees.VarFreeIffNoVars: about the intended discovery; the same `None` caveat applies.
- Queries.GetEsQuery: the intended resolution; on a template holding `None` the source raises `RecursionError` before resolving anything (`Queries.GetEsQueryAsWrittenOutcome`).
- Queries.FullQueryResolves: compares with the intended `get_es_query`; the same `None` caveat applies.
- Queries.FullQueryAgrees: compares with the intended `get_es_query`; the same `None` caveat applies.
- Queries.NoFiltersFailIffSomeFails: about the intended `get_es_query`; the same `None` caveat applies.
- Queries.NoFiltersMissingFails: about the intended `get_es_query`; the same `None` caveat applies.
- Queries.NoFiltersErrorNamesMissing: about the intended `get_es_query`; the same `None` caveat applies.
- Scenarios.AggsOnlyResolves: about the intended `get_es_query`; with `None` in `aggs` the source raises `RecursionError` (`Scenarios.NoneValueNeverResolves`).
- Deep copies at construction and before filtering (esqb/query.py:29-33, 105) and the non-mutation of templates by `replace_variables` (esqb/utils.py:10, 22): Dafny values are immutable, so isolation holds by construction. In the source, a slot a subclass defines as a class attribute shadows the `BaseQuery` property of that name (esqb/query.py:45-84), so `self.<slot>` returns the shared class-level value and the copy taken at construction is never read; in-place mutation of a slot is therefore not isolated between instances, and mutation is not modelled. The `self.__class__.__dict__` lookup, which ignores inherited slots, is modelled as an explicit `Definition` record.
- `BaseQuery.get_id` (module and file system lookup), `serializer`, `get_serializer`, `docs`, `view_docs` and `name`: wrappers over the file system, Django REST Framework and the documentation builders.
- esqb/drf_support.py, esqb/docs_builder.py, es_query_builder/docs_builder.py, create-docs.py, setup.py and es_query_builder/__init__.py: serializer synthesis, documentation rendering, packaging and version lookup.
- The `variables` setter (esqb/queryfilter.py:46-48): a filter's declared list is fixed when it is built.

## Findings

| source | as written | input that shows it | evidently intended | confidence | as-written member | corrected member |
|---|---|---|---|---|---|---|
| esqb/query.py:142-165 | a `None` slot, list element or mapping value is passed back to `find_all_variables` as `docs`, which reads `None` as "called without a document" and restarts the walk from the slots, forever | a query with `aggs = {'x': None}`, resolved with any data | `None` is a scalar that holds no variable, and `get_es_query` returns `{'query': {}, 'size': 0, 'aggs': {'x': None}, 'sort': []}` | not executed | Queries.DiscoverAsWrittenDiverges | Queries.FindAllVariables |

=== FILE: dotpath.dfy ===
/** Dot-notation paths into a resolved document (esqb/query.py, `dotget`). */
module DotPaths {
  import opened Json
  import opened Results

  /** Python's `sep.join(parts)`. */
  function Join(parts: seq<string>, sep: char): string
    requires |parts| >= 1
  {
    if |parts| == 1 then parts[0] else parts[0] + [sep] + Join(parts[1..], sep)
  }

  /** Python's `s.split(sep)`: the pieces between separators, empty ones included,
      so there is always at least one. */
  function Split(s: string, sep: char): (parts: seq<string>)
    ensures |parts| >= 1
    ensures forall i :: 0 <= i < |parts| ==> sep !in parts[i]
    ensures Join(parts, sep) == s
  {
    if |s| == 0 then [""]
    else
      var rest := Split(s[1..], sep);
      if s[0] == sep then
        assert ([""] + rest)[1..] == rest;
        [""] + rest
      else
        var parts := [[s[0]] + rest[0]] + rest[1..];
        assert parts[1..] == rest[1..];
        assert forall i :: 1 <= i < |parts| ==> parts[i] == rest[i];
        parts
  }

  /** Splitting a joined list of separator-free pieces gives the pieces back. */
  lemma {:induction false} SplitJoin(parts: seq<string>, sep: char)
    requires |parts| >= 1
    requires forall i :: 0 <= i < |parts| ==> sep !in parts[i]
    ensures Split(Join(parts, sep), sep) == parts
  {
    if |parts| == 1 {
      SplitNoSep(parts[0], sep);
    } else {
      SplitJoin(parts[1..], sep);
      SplitPrefix(parts[0], sep, Join(parts[1..], sep));
      assert parts == [parts[0]] + parts[1..];
    }
  }

  lemma {:induction false} SplitNoSep(s: string, sep: char)
    requires sep !in s
    ensures Split(s, sep) == [s]
  {
    if |s| > 0 {
      SplitNoSep(s[1..], sep);
      assert [s[0]] + s[1..] == s;
    }
  }

  /** A separator-free prefix followed by a separator is split off as one piece. */
  lemma {:induction false} SplitPrefix(a: string, sep: char, b: string)
    requires sep !in a
    ensures Split(a + [sep] + b, sep) == [a] + Split(b, sep)
  {
    if |a| == 0 {
      assert a + [sep] + b == [sep] + b;
      assert ([sep] + b)[1..] == b;
    } else {
      assert (a + [sep] + b)[1..] == a[1..] + [sep] + b;
      SplitPrefix(a[1..], sep, b);
      assert [a[0]] + a[1..] == a;
    }
  }

  lemma {:induction false} JoinAppend(xs: seq<string>, ys: seq<string>, sep: char)
    requires |xs| >= 1 && |ys| >= 1
    ensures Join(xs + ys, sep) == Join(xs, sep) + [sep] + Join(ys, sep)
  {
    if |xs| == 1 {
      assert (xs + ys)[1..] == ys;
    } else {
      assert (xs + ys)[1..] == xs[1..] + ys;
      JoinAppend(xs[1..], ys, sep);
    }
  }

  /** Splitting at a separator splits each side independently. */
  lemma SplitAround(p1: string, sep: char, p2: string)
    ensures Split(p1 + [sep] + p2, sep) == Split(p1, sep) + Split(p2, sep)
  {
    var parts := Split(p1, sep) + Split(p2, sep);
    JoinAppend(Split(p1, sep), Split(p2, sep), sep);
    assert forall i :: 0 <= i < |parts| ==> sep !in parts[i] by {
      forall i | 0 <= i < |parts| ensures sep !in parts[i] {
        if i >= |Split(p1, sep)| {
          assert parts[i] == Split(p2, sep)[i - |Split(p1, sep)|];
        }
      }
    }
    SplitJoin(parts, sep);
  }

  /** The loop of `dotget`: index by each key in turn. A missing key or a value
      that is not an object is Python's `KeyError`/`TypeError`, here `None`. */
  function Walk(doc: Json, keys: seq<string>): Option<Json> {
    if |keys| == 0 then Some(doc)
    else
      match Lookup(doc, JStr(keys[0]))
      case None => None
      case Some(d) => Walk(d, keys[1..])
  }

  lemma {:induction false} WalkAppend(doc: Json, ks1: seq<string>, ks2: seq<string>)
    ensures Walk(doc, ks1 + ks2) ==
            match Walk(doc, ks1)
            case None => None
            case Some(d) => Walk(d, ks2)
  {
    if |ks1| == 0 {
      assert ks1 + ks2 == ks2;
    } else {
      assert (ks1 + ks2)[0] == ks1[0];
      assert (ks1 + ks2)[1..] == ks1[1..] + ks2;
      match Lookup(doc, JStr(ks1[0]))
      case None =>
      case Some(d) => WalkAppend(d, ks1[1..], ks2);
    }
  }

  /** A path without dots walks a single key, which is one lookup. */
  lemma WalkOneKey(doc: Json, path: string)
    ensures '.' !in path ==> Walk(doc, Split(path, '.')) == Lookup(doc, JStr(path))
  {
    if '.' !in path {
      SplitNoSep(path, '.');
      assert [path][1..] == [];
      match Lookup(doc, JStr(path))
      case None =>
      case Some(d) => assert Walk(d, []) == Some(d);
    }
  }

  /** `dotget(doc, path)`: follow the dot-separated keys of `path`; a path without
      dots is a single key. */
  function Dotget(doc: Json, path: string): (r: Option<Json>)
    ensures '.' !in path ==> r == Lookup(doc, JStr(path))
  {
    WalkOneKey(doc, path);
    Walk(doc, Split(path, '.'))
  }

  /** Following `p1.p2` is following `p1`, then `p2` from there. */
  lemma DotgetCompose(doc: Json, p1: string, p2: string)
    ensures Dotget(doc, p1 + "." + p2) ==
            match Dotget(doc, p1)
            case None => None
            case Some(d) => Dotget(d, p2)
  {
    SplitAround(p1, '.', p2);
    WalkAppend(doc, Split(p1, '.'), Split(p2, '.'));
  }

  /** `dotget(doc, "a.b.c")` is `doc["a"]["b"]["c"]`, failing where a key is missing. */
  lemma DotgetThreeKeys(doc: Json, a: string, b: string, c: string)
    requires '.' !in a && '.' !in b && '.' !in c
    ensures Dotget(doc, a + "." + b + "." + c) ==
            match Lookup(doc, JStr(a))
            case None => None
            case Some(da) =>
              match Lookup(da, JStr(b))
              case None => None
              case Some(db) => Lookup(db, JStr(c))
  {
    DotgetCompose(doc, a + "." + b, c);
    DotgetCompose(doc, a, b);
    match Lookup(doc, JStr(a))
    case None =>
    case Some(da) =>
      assert Dotget(da, b) == Lookup(da, JStr(b));
      match Lookup(da, JStr(b))
      case None =>
      case Some(db) => assert Dotget(db, c) == Lookup(db, JStr(c));
  }
}

=== FILE: json.dfy ===
/** The JSON-like values a resolved query document is made of. */
module Json {
  import opened Results

  /** Leaf values: Python's None, bool, int and str. */
  datatype Scalar = Null | Bool(b: bool) | Int(i: int) | Str(s: string)

  /** A resolved value. Object keys are values too: a variable used as a key
      resolves to whatever its data or default is (`default=0` gives the key 0). */
  datatype Json =
    | JScalar(s: Scalar)
    | JList(items: seq<Json>)
    | JObj(entries: seq<(Json, Json)>)

  /** The flat map of runtime values a query is resolved against. */
  type Data = map<string, Json>

  function JStr(s: string): Json {
    JScalar(Str(s))
  }

  function JInt(i: int): Json {
    JScalar(Int(i))
  }

  /** Whether Python can use the value as a dict key: lists and dicts are unhashable. */
  predicate Hashable(j: Json) {
    j.JScalar?
  }

  const EmptyObj: Json := JObj([])
  const EmptyList: Json := JList([])

  /** Whether `k` is a key of the object `doc`. */
  predicate HasKey(doc: Json, k: Json) {
    doc.JObj? && exists i :: 0 <= i < |doc.entries| && doc.entries[i].0 == k
  }

  /** The first entry of `es` keyed `k` holds `v`. */
  predicate FirstWithKey(es: seq<(Json, Json)>, k: Json, v: Json) {
    exists i :: 0 <= i < |es| && es[i] == (k, v) && forall j :: 0 <= j < i ==> es[j].0 != k
  }

  /** `doc[k]`: the value under the first entry keyed `k`, if `doc` is an object holding one. */
  function Lookup(doc: Json, k: Json): (r: Option<Json>)
    ensures r.Some? <==> HasKey(doc, k)
    ensures r.Some? ==> FirstWithKey(doc.entries, k, r.value)
  {
    if doc.JObj? then LookupEntries(doc.entries, k) else None
  }

  function LookupEntries(es: seq<(Json, Json)>, k: Json): (r: Option<Json>)
    ensures r.Some? <==> exists i :: 0 <= i < |es| && es[i].0 == k
    ensures r.Some? ==> FirstWithKey(es, k, r.value)
  {
    if |es| == 0 then None
    else if es[0].0 == k then Some(es[0].1)
    else
      var r := LookupEntries(es[1..], k);
      assert forall i :: 1 <= i < |es| ==> es[i] == es[1..][i - 1];
      r
  }

  /** An entry whose key no earlier entry has is what a lookup of that key finds. */
  lemma LookupAt(es: seq<(Json, Json)>, i: nat)
    requires i < |es|
    requires forall j :: 0 <= j < i ==> es[j].0 != es[i].0
    ensures Lookup(JObj(es), es[i].0) == Some(es[i].1)
  {
    var r := LookupEntries(es, es[i].0);
    var i' :| 0 <= i' < |es| && es[i'] == (es[i].0, r.value) && forall j :: 0 <= j < i' ==> es[j].0 != es[i].0;
    assert i' == i;
  }
}

=== FILE: legacy_variable.dfy ===
/** The older `Variable` of es_query_builder/variable.py: the same placeholder
    without a builder, and with `type=int` as its default type. */
module LegacyVariables {
  import opened Json
  import opened Results
  import V = Variables

  datatype LegacyVar = LegacyVar(
    name: string,
    default: Json,
    typeTag: V.TypeTag,
    required: bool,
    helpText: string,
    serializerOptions: seq<(string, Json)>,
    serializerClass: Option<string>)

  /** The constructor, with the legacy defaults. */
  function NewLegacyVar(
    name: string,
    default: Json := JScalar(Null),
    typeTag: V.TypeTag := V.IntType,
    required: bool := false,
    helpText: string := V.UnknownVariable,
    serializerClass: Option<string> := None,
    serializerOptions: Option<seq<(string, Json)>> := None): (v: LegacyVar)
    ensures v.name == name && v.default == default && v.typeTag == typeTag
    ensures v.required == required && v.helpText == helpText && v.serializerClass == serializerClass
    ensures v.serializerOptions == serializerOptions.GetOr([])
  {
    LegacyVar(name, default, typeTag, required, helpText, serializerOptions.GetOr([]), serializerClass)
  }

  /** The keyword arguments of the legacy `copy(**kwargs)`; there is no builder to override. */
  datatype LegacyOverrides = LegacyOverrides(
    name: Option<string>,
    default: Option<Json>,
    typeTag: Option<V.TypeTag>,
    required: Option<bool>,
    helpText: Option<string>,
    serializerClass: Option<Option<string>>,
    serializerOptions: Option<Option<seq<(string, Json)>>>)

  function Copy(v: LegacyVar, o: LegacyOverrides): (c: LegacyVar)
    ensures c.name == o.name.GetOr(v.name) && c.default == o.default.GetOr(v.default)
    ensures c.typeTag == o.typeTag.GetOr(v.typeTag) && c.required == o.required.GetOr(v.required)
    ensures c.helpText == o.helpText.GetOr(v.helpText)
    ensures c.serializerClass == o.serializerClass.GetOr(v.serializerClass)
    ensures o.serializerOptions.None? ==> c.serializerOptions == v.serializerOptions
    ensures o.serializerOptions.Some? ==> c.serializerOptions == o.serializerOptions.value.GetOr([])
  {
    NewLegacyVar(
      o.name.GetOr(v.name),
      default := o.default.GetOr(v.default),
      typeTag := o.typeTag.GetOr(v.typeTag),
      required := o.required.GetOr(v.required),
      helpText := o.helpText.GetOr(v.helpText),
      serializerClass := o.serializerClass.GetOr(v.serializerClass),
      serializerOptions := o.serializerOptions.GetOr(Some(v.serializerOptions)))
  }

  /** `value_from_dict(d)`: like the current version, with no transform applied. */
  function ValueFromDict(v: LegacyVar, d: Option<Data>): (r: Result<Json>)
    ensures var m := V.DataOrEmpty(d);
      (r.Fail? <==> v.required && v.name !in m)
      && (r.Fail? ==> r.error == MissingRequiredVariable(v.name))
      && (r.Ok? ==> r.value == if v.name in m then m[v.name] else v.default)
  {
    var m := if d.None? then map[] else d.value;
    if v.required && v.name !in m then
      Fail(MissingRequiredVariable(v.name))
    else if v.name in m then Ok(m[v.name])
    else Ok(v.default)
  }

  /** `__str__`, with the printed default again a parameter. */
  function Display(v: LegacyVar, show: Json -> string): (s: string)
    ensures v.required ==> s == "${" + v.name + ":?Required. " + v.helpText + "}"
    ensures !v.required ==> s == "${" + v.name + ":-" + show(v.default) + ":?" + v.helpText + "}"
  {
    if v.required then "${" + v.name + ":?Required. " + v.helpText + "}"
    else "${" + v.name + ":-" + show(v.default) + ":?" + v.helpText + "}"
  }

  /** The current variable with the same attributes and no builder. */
  function Upgrade(v: LegacyVar): (u: V.Var)
    ensures u.builder.None?
  {
    V.Var(v.name, v.default, v.typeTag, v.required, v.helpText, v.serializerOptions, v.serializerClass, None)
  }

  function UpgradeOverrides(o: LegacyOverrides): V.Overrides {
    V.Overrides(o.name, o.default, o.typeTag, o.required, o.helpText, o.serializerClass, o.serializerOptions, None)
  }

  /** Both versions resolve a builder-less variable to the same value, whatever the builders mean. */
  lemma ValueFromDictAgrees(v: LegacyVar, d: Option<Data>, build: V.Builders)
    ensures ValueFromDict(v, d) == V.ValueFromDict(Upgrade(v), d, build)
  {
  }

  /** Both versions copy the same way and print the same placeholder. */
  lemma CopyAndDisplayAgree(v: LegacyVar, o: LegacyOverrides, show: Json -> string)
    ensures Upgrade(Copy(v, o)) == V.Copy(Upgrade(v), UpgradeOverrides(o))
    ensures Display(v, show) == V.Display(Upgrade(v), show)
  {
  }

  /** The two constructors differ only in the default type tag. */
  lemma ConstructorDefaults(name: string)
    ensures Upgrade(NewLegacyVar(name)) == V.NewVar(name).(typeTag := V.IntType)
    ensures NewLegacyVar(name).typeTag == V.IntType && V.NewVar(name).typeTag == V.StrType
  {
  }
}

=== FILE: query.dfy ===
/** The query template: four slot trees and an ordered filter list (esqb/query.py, `BaseQuery`). */
module Queries {
  import opened Json
  import opened Results
  import opened Variables
  import opened Trees
  import opened Substitution
  import opened QueryFilters

  /** What a `BaseQuery` subclass defines; `None` where it defines nothing. */
  datatype Definition = Definition(
    size: Option<Tree>,
    aggs: Option<Tree>,
    query: Option<Tree>,
    filters: Option<seq<Filter>>,
    sort: Option<Tree>)

  const EmptyDefinition: Definition := Definition(None, None, None, None, None)

  /** A query instance. Values are immutable, so the deep copies the source takes at
      construction and before filtering are implicit. */
  datatype Query = Query(size: Tree, aggs: Tree, query: Tree, filters: seq<Filter>, sort: Tree)

  const ZeroSize: Tree := TScalar(Int(0))
  const EmptyMapping: Tree := TObj([])
  const EmptySequence: Tree := TList([])

  /** `BaseQuery()`: each slot and the filter list as defined, or its default. */
  function Instantiate(def: Definition): (q: Query)
    ensures def.size.Some? ==> q.size == def.size.value
    ensures def.aggs.Some? ==> q.aggs == def.aggs.value
    ensures def.query.Some? ==> q.query == def.query.value
    ensures def.filters.Some? ==> q.filters == def.filters.value
    ensures def.sort.Some? ==> q.sort == def.sort.value
    ensures def.size.None? ==> q.size == ZeroSize
    ensures def.aggs.None? ==> q.aggs == EmptyMapping
    ensures def.query.None? ==> q.query == EmptyMapping
    ensures def.filters.None? ==> q.filters == []
    ensures def.sort.None? ==> q.sort == EmptySequence
  {
    Query(
      def.size.GetOr(ZeroSize),
      def.aggs.GetOr(EmptyMapping),
      def.query.GetOr(EmptyMapping),
      def.filters.GetOr([]),
      def.sort.GetOr(EmptySequence))
  }

  /** A query defining nothing has size 0, empty `query` and `aggs`, no filters and an empty `sort`. */
  lemma FreshInstanceDefaults()
    ensures Instantiate(EmptyDefinition) == Query(TScalar(Int(0)), TObj([]), TObj([]), [], TList([]))
  {
  }

  /** The tree a slot name selects. */
  function SlotTree(q: Query, s: Slot): Tree {
    match s
    case QuerySlot => q.query
    case SizeSlot => q.size
    case AggsSlot => q.aggs
    case SortSlot => q.sort
  }

  function SlotName(s: Slot): string {
    match s
    case QuerySlot => "query"
    case SizeSlot => "size"
    case AggsSlot => "aggs"
    case SortSlot => "sort"
  }

  /** The filters of `fs` bound to `slot`, in order. */
  function OnSlot(fs: seq<Filter>, slot: Slot): (r: seq<Filter>)
    ensures |r| <= |fs|
    ensures forall i :: 0 <= i < |r| ==> r[i].slot == slot && r[i] in fs
    ensures forall i :: 0 <= i < |fs| && fs[i].slot == slot ==> fs[i] in r
  {
    if |fs| == 0 then []
    else if fs[0].slot == slot then [fs[0]] + OnSlot(fs[1..], slot)
    else OnSlot(fs[1..], slot)
  }

  /** The loop of `_filtered`: the filters bound to `slot`, in list order, each
      consuming the previous one's output. */
  function RunFilters(fs: seq<Filter>, slot: Slot, t: Tree, data: Data, rewrite: Rewriters): (r: Result<Tree>)
    ensures (forall i :: 0 <= i < |fs| ==> fs[i].slot != slot) ==> r == Ok(t)
    ensures (forall i :: 0 <= i < |fs| && fs[i].slot == slot ==> !fs[i].required) ==> r.Ok?
    ensures r.Fail? ==> r.error == RequiredFilterUnsatisfied
    ensures r.Fail? ==> exists i :: 0 <= i < |fs| && fs[i].slot == slot && fs[i].required && !CanApply(fs[i], data)
  {
    if |fs| == 0 then Ok(t)
    else
      assert forall i :: 1 <= i < |fs| ==> fs[i] == fs[1..][i - 1];
      if fs[0].slot != slot then RunFilters(fs[1..], slot, t, data, rewrite)
      else
        var t1 :- Call(fs[0], t, rewrite, data);
        RunFilters(fs[1..], slot, t1, data, rewrite)
  }

  /** Running a concatenation runs the first part, then the second on its output. */
  lemma {:induction false} RunFiltersAppend(fs1: seq<Filter>, fs2: seq<Filter>, slot: Slot, t: Tree, data: Data, rewrite: Rewriters)
    ensures RunFilters(fs1 + fs2, slot, t, data, rewrite) ==
            match RunFilters(fs1, slot, t, data, rewrite)
            case Fail(e) => Fail(e)
            case Ok(t1) => RunFilters(fs2, slot, t1, data, rewrite)
  {
    if |fs1| == 0 {
      assert fs1 + fs2 == fs2;
    } else {
      assert (fs1 + fs2)[1..] == fs1[1..] + fs2;
      if fs1[0].slot != slot {
        RunFiltersAppend(fs1[1..], fs2, slot, t, data, rewrite);
      } else {
        var c := Call(fs1[0], t, rewrite, data);
        if c.Ok? {
          RunFiltersAppend(fs1[1..], fs2, slot, c.value, data, rewrite);
        }
      }
    }
  }

  /** Filters bound to other slots play no part. */
  lemma {:induction false} RunFiltersOnSlot(fs: seq<Filter>, slot: Slot, t: Tree, data: Data, rewrite: Rewriters)
    ensures RunFilters(fs, slot, t, data, rewrite) == RunFilters(OnSlot(fs, slot), slot, t, data, rewrite)
  {
    if |fs| > 0 {
      if fs[0].slot == slot {
        var c := Call(fs[0], t, rewrite, data);
        if c.Ok? {
          RunFiltersOnSlot(fs[1..], slot, c.value, data, rewrite);
        }
        assert ([fs[0]] + OnSlot(fs[1..], slot))[1..] == OnSlot(fs[1..], slot);
      } else {
        RunFiltersOnSlot(fs[1..], slot, t, data, rewrite);
      }
    }
  }

  /** `_filtered(slot, data)`: the slot's tree after the filters bound to it. */
  function Filtered(q: Query, slot: Slot, data: Data, rewrite: Rewriters): (r: Result<Tree>)
    ensures (forall i :: 0 <= i < |q.filters| ==> q.filters[i].slot != slot) ==> r == Ok(SlotTree(q, slot))
    ensures r.Fail? ==> r.error == RequiredFilterUnsatisfied
  {
    RunFilters(q.filters, slot, SlotTree(q, slot), data, rewrite)
  }

  /** Slot isolation: inserting a filter bound to another slot leaves a slot's filtered tree as it was. */
  lemma OtherSlotFilterIgnored(q: Query, fs1: seq<Filter>, f: Filter, fs2: seq<Filter>, slot: Slot, data: Data, rewrite: Rewriters)
    requires f.slot != slot
    ensures Filtered(q.(filters := fs1 + [f] + fs2), slot, data, rewrite) == Filtered(q.(filters := fs1 + fs2), slot, data, rewrite)
  {
    var t := SlotTree(q, slot);
    RunFiltersAppend(fs1 + [f], fs2, slot, t, data, rewrite);
    RunFiltersAppend(fs1, [f], slot, t, data, rewrite);
    RunFiltersAppend(fs1, fs2, slot, t, data, rewrite);
  }

  /** One slot of `get_es_query`: its filtered tree, then substituted. */
  function ResolveSlot(q: Query, slot: Slot, data: Data, build: Builders, rewrite: Rewriters): (r: Result<Json>)
    ensures Filtered(q, slot, data, rewrite).Fail? ==> r == Fail(RequiredFilterUnsatisfied)
    ensures Filtered(q, slot, data, rewrite).Ok? ==> r == Resolve(Filtered(q, slot, data, rewrite).value, data, build)
    ensures (forall i :: 0 <= i < |q.filters| ==> q.filters[i].slot != slot) ==> r == Resolve(SlotTree(q, slot), data, build)
  {
    var t :- Filtered(q, slot, data, rewrite);
    Resolve(t, data, build)
  }

  /** The order in which `get_es_query` builds its slots. */
  const ResolutionOrder: seq<Slot> := [QuerySlot, SizeSlot, AggsSlot, SortSlot]

  /** The keys of a JSON object, in order. */
  function Keys(j: Json): seq<Json>
    requires j.JObj?
  {
    seq(|j.entries|, i requires 0 <= i < |j.entries| => j.entries[i].0)
  }

  /** Where a slot stands in `ResolutionOrder`. */
  function SlotIndex(s: Slot): (k: nat)
    ensures k < 4 && ResolutionOrder[k] == s
  {
    match s
    case QuerySlot => 0
    case SizeSlot => 1
    case AggsSlot => 2
    case SortSlot => 3
  }

  /** The resolved document: each slot's value under the slot's name, in resolution order. */
  function Document(vals: seq<Json>): (d: Json)
    requires |vals| == 4
    ensures d.JObj? && Keys(d) == [JStr("query"), JStr("size"), JStr("aggs"), JStr("sort")]
    ensures forall s :: Lookup(d, JStr(SlotName(s))) == Some(vals[SlotIndex(s)])
  {
    var es := [(JStr("query"), vals[0]), (JStr("size"), vals[1]), (JStr("aggs"), vals[2]), (JStr("sort"), vals[3])];
    DocumentLookup(es);
    JObj(es)
  }

  lemma DocumentLookup(es: seq<(Json, Json)>)
    requires |es| == 4
    requires es[0].0 == JStr("query") && es[1].0 == JStr("size") && es[2].0 == JStr("aggs") && es[3].0 == JStr("sort")
    ensures forall s :: Lookup(JObj(es), JStr(SlotName(s))) == Some(es[SlotIndex(s)].1)
  {
    forall s: Slot
      ensures Lookup(JObj(es), JStr(SlotName(s))) == Some(es[SlotIndex(s)].1)
    {
      assert "query" != "size" && "query" != "aggs" && "query" != "sort";
      assert "size" != "aggs" && "size" != "sort" && "aggs" != "sort";
      LookupAt(es, SlotIndex(s));
    }
  }

  /** The four slot results, fail-fast in resolution order, assembled into one document. */
  function Assemble(rs: seq<Result<Json>>): (r: Result<Json>)
    requires |rs| == 4
    ensures r.Ok? <==> forall k :: 0 <= k < 4 ==> rs[k].Ok?
    ensures r.Ok? ==> r.value.JObj? && Keys(r.value) == [JStr("query"), JStr("size"), JStr("aggs"), JStr("sort")]
    ensures r.Ok? ==> forall s :: Lookup(r.value, JStr(SlotName(s))) == Some(rs[SlotIndex(s)].value)
    ensures r.Fail? ==> exists k :: 0 <= k < 4 && rs[k] == Fail(r.error) && forall j :: 0 <= j < k ==> rs[j].Ok?
  {
    if rs[0].Fail? then Fail(rs[0].error)
    else if rs[1].Fail? then Fail(rs[1].error)
    else if rs[2].Fail? then Fail(rs[2].error)
    else if rs[3].Fail? then Fail(rs[3].error)
    else Ok(Document(seq(4, k requires 0 <= k < 4 => rs[k].value)))
  }

  /** `get_es_query(data)`: the document `{query, size, aggs, sort}`, each slot
      filtered and then substituted, failing with the first error in that order.
      The source first builds a name-to-variable table from `find_all_variables()`
      that nothing reads; building it never ends on a template holding `None`.
      This is the intended behaviour; `GetEsQueryAsWritten` keeps that first step. */
  function GetEsQuery(q: Query, data: Data, build: Builders, rewrite: Rewriters): (r: Result<Json>)
    ensures r.Ok? <==> forall s :: ResolveSlot(q, s, data, build, rewrite).Ok?
    ensures r.Ok? ==> r.value.JObj? && Keys(r.value) == [JStr("query"), JStr("size"), JStr("aggs"), JStr("sort")]
    ensures r.Ok? ==> forall s :: Lookup(r.value, JStr(SlotName(s))) == Some(ResolveSlot(q, s, data, build, rewrite).value)
    ensures r.Fail? ==> exists k :: 0 <= k < 4 && ResolveSlot(q, ResolutionOrder[k], data, build, rewrite) == Fail(r.error)
                          && forall j :: 0 <= j < k ==> ResolveSlot(q, ResolutionOrder[j], data, build, rewrite).Ok?
  {
    Assemble(SlotResults(q, data, build, rewrite))
  }

  /** Every slot resolved, in resolution order. */
  function SlotResults(q: Query, data: Data, build: Builders, rewrite: Rewriters): (rs: seq<Result<Json>>)
    ensures |rs| == 4
    ensures forall k :: 0 <= k < 4 ==> rs[k] == ResolveSlot(q, ResolutionOrder[k], data, build, rewrite)
    ensures forall s :: rs[SlotIndex(s)] == ResolveSlot(q, s, data, build, rewrite)
  {
    seq(4, k requires 0 <= k < 4 => ResolveSlot(q, ResolutionOrder[k], data, build, rewrite))
  }

  /** The filters' exposed variables, filter after filter. */
  function FilterVars(fs: seq<Filter>): (r: seq<Var>)
    ensures forall v :: v in r <==> exists i :: 0 <= i < |fs| && v in ExposedVars(fs[i])
  {
    if |fs| == 0 then []
    else
      assert forall i :: 1 <= i < |fs| ==> fs[i] == fs[1..][i - 1];
      ExposedVars(fs[0]) + FilterVars(fs[1..])
  }

  /** The filters' variables of a concatenation: the left part's, then the right's. */
  lemma {:induction false} FilterVarsAppend(fs1: seq<Filter>, fs2: seq<Filter>)
    ensures FilterVars(fs1 + fs2) == FilterVars(fs1) + FilterVars(fs2)
  {
    if |fs1| == 0 {
      assert fs1 + fs2 == fs2;
    } else {
      assert (fs1 + fs2)[0] == fs1[0];
      assert (fs1 + fs2)[1..] == fs1[1..] + fs2;
      FilterVarsAppend(fs1[1..], fs2);
    }
  }

  /** `find_all_variables(include_filters)`: the filters' exposed variables (unless
      excluded), then the variables of `query`, `aggs`, `size` and `sort`, visited
      as the elements of one list in that order. */
  function FindAllVariables(q: Query, includeFilters: bool := true): (r: seq<Var>)
    ensures includeFilters ==>
              r == FilterVars(q.filters) + TreeVars(q.query) + TreeVars(q.aggs) + TreeVars(q.size) + TreeVars(q.sort)
    ensures !includeFilters ==> r == TreeVars(q.query) + TreeVars(q.aggs) + TreeVars(q.size) + TreeVars(q.sort)
  {
    var prev := if includeFilters then FilterVars(q.filters) else [];
    var slots := [q.query, q.aggs, q.size, q.sort];
    ListVarsFour(q.query, q.aggs, q.size, q.sort);
    prev + ListVars(slots)
  }

  /** A query whose filters are all optional exposes a filter variable only as not required. */
  lemma OptionalFiltersExposeOptionalVars(q: Query)
    requires forall i :: 0 <= i < |q.filters| ==> !q.filters[i].required
    ensures forall k :: 0 <= k < |FilterVars(q.filters)| ==> !FilterVars(q.filters)[k].required
  {
    forall k | 0 <= k < |FilterVars(q.filters)|
      ensures !FilterVars(q.filters)[k].required
    {
      var v := FilterVars(q.filters)[k];
      assert v in FilterVars(q.filters);
      var i :| 0 <= i < |q.filters| && v in ExposedVars(q.filters[i]);
      OptionalFilterExposesOptionalVars(q.filters[i]);
    }
  }

  /** `full_query`: the unresolved definition, slots keyed by name. */
  function FullQuery(q: Query): (t: Tree)
    ensures t.TObj? && |t.entries| == 4
    ensures forall s :: t.entries[FullIndex(s)] == (KLit(JStr(SlotName(s))), SlotTree(q, s))
  {
    TObj([(KLit(JStr("size")), q.size), (KLit(JStr("query")), q.query),
          (KLit(JStr("aggs")), q.aggs), (KLit(JStr("sort")), q.sort)])
  }

  /** The full query holds exactly the variables discovery finds in the slots,
      though in another order. */
  lemma FullQueryVars(q: Query)
    ensures multiset(TreeVars(FullQuery(q))) == multiset(FindAllVariables(q, false))
  {
    var a, b, c, d := TreeVars(q.query), TreeVars(q.aggs), TreeVars(q.size), TreeVars(q.sort);
    FullQueryVarsInOrder(q);
    assert multiset(c + a + b + d) == multiset(a + b + c + d);
  }

  /** The full query lists `size`, `query`, `aggs` and `sort`, in that order. */
  lemma FullQueryVarsInOrder(q: Query)
    ensures TreeVars(FullQuery(q)) == TreeVars(q.size) + TreeVars(q.query) + TreeVars(q.aggs) + TreeVars(q.sort)
  {
    var e0, e1 := (KLit(JStr("size")), q.size), (KLit(JStr("query")), q.query);
    var e2, e3 := (KLit(JStr("aggs")), q.aggs), (KLit(JStr("sort")), q.sort);
    assert FullQuery(q).entries == [e0, e1, e2, e3];
    EntryVarsFour(e0, e1, e2, e3);
    EntryVarsSingle(e0);
    EntryVarsSingle(e1);
    EntryVarsSingle(e2);
    EntryVarsSingle(e3);
  }

  /** The position of a slot's entry in `full_query`. */
  function FullIndex(s: Slot): (k: nat)
    ensures k < 4
  {
    match s
    case SizeSlot => 0
    case QuerySlot => 1
    case AggsSlot => 2
    case SortSlot => 3
  }

  /** Without filters, resolving `full_query` succeeds exactly when `get_es_query` does. */
  lemma FullQueryResolves(q: Query, data: Data, build: Builders, rewrite: Rewriters)
    requires q.filters == []
    ensures Resolve(FullQuery(q), data, build).Ok? <==> GetEsQuery(q, data, build, rewrite).Ok?
  {
    FullQueryEntries(q, data, build, rewrite);
    FullQuerySucceeds(q, data, build, rewrite);
  }

  /** When `get_es_query` succeeds without filters, it and the resolved `full_query`
      hold the same value under every slot name. */
  lemma FullQueryAgrees(q: Query, data: Data, build: Builders, rewrite: Rewriters, s: Slot)
    requires q.filters == []
    ensures GetEsQuery(q, data, build, rewrite).Ok? ==>
              Resolve(FullQuery(q), data, build).Ok?
              && Lookup(Resolve(FullQuery(q), data, build).value, JStr(SlotName(s)))
                 == Lookup(GetEsQuery(q, data, build, rewrite).value, JStr(SlotName(s)))
  {
    if GetEsQuery(q, data, build, rewrite).Ok? {
      FullQueryResolves(q, data, build, rewrite);
      var vs := ResolvedFullQuery(q, data, build);
      var k := FullIndex(s);
      assert FullQuery(q).entries[k].1 == SlotTree(q, s);
      FullLookup(vs, k);
      NoFiltersSlot(q, s, data, build, rewrite);
    }
  }

  /** A resolved `full_query` keeps its keys in order, each slot's tree resolved under its key. */
  lemma ResolvedFullQuery(q: Query, data: Data, build: Builders) returns (vs: seq<(Json, Json)>)
    requires Resolve(FullQuery(q), data, build).Ok?
    ensures Resolve(FullQuery(q), data, build).value == JObj(vs)
    ensures |vs| == 4
    ensures vs[0].0 == JStr("size") && vs[1].0 == JStr("query") && vs[2].0 == JStr("aggs") && vs[3].0 == JStr("sort")
    ensures forall i :: 0 <= i < 4 ==> Resolve(FullQuery(q).entries[i].1, data, build) == Ok(vs[i].1)
  {
    var es := FullQuery(q).entries;
    vs := Resolve(FullQuery(q), data, build).value.entries;
    forall i | 0 <= i < 4
      ensures ResolveEntry(es[i], data, build) == Ok(vs[i])
    {
    }
  }

  lemma FullQuerySucceeds(q: Query, data: Data, build: Builders, rewrite: Rewriters)
    requires q.filters == []
    requires forall s :: ResolveEntry(FullQuery(q).entries[FullIndex(s)], data, build).Ok? <==> ResolveSlot(q, s, data, build, rewrite).Ok?
    ensures Resolve(FullQuery(q), data, build).Ok? <==> GetEsQuery(q, data, build, rewrite).Ok?
  {
    var es := FullQuery(q).entries;
    var rs := SlotResults(q, data, build, rewrite);
    assert GetEsQuery(q, data, build, rewrite) == Assemble(rs);
    assert rs[0] == ResolveSlot(q, QuerySlot, data, build, rewrite);
    assert rs[1] == ResolveSlot(q, SizeSlot, data, build, rewrite);
    assert rs[2] == ResolveSlot(q, AggsSlot, data, build, rewrite);
    assert rs[3] == ResolveSlot(q, SortSlot, data, build, rewrite);
    var e0, e1, e2, e3 := ResolveEntry(es[0], data, build), ResolveEntry(es[1], data, build),
                          ResolveEntry(es[2], data, build), ResolveEntry(es[3], data, build);
    assert e0.Ok? == rs[1].Ok? by { assert FullIndex(SizeSlot) == 0; }
    assert e1.Ok? == rs[0].Ok? by { assert FullIndex(QuerySlot) == 1; }
    assert e2.Ok? == rs[2].Ok? by { assert FullIndex(AggsSlot) == 2; }
    assert e3.Ok? == rs[3].Ok? by { assert FullIndex(SortSlot) == 3; }
    ResolveFourEntries(es, data, build);
  }

  lemma ResolveFourEntries(es: seq<(Key, Tree)>, data: Data, build: Builders)
    requires |es| == 4
    ensures Resolve(TObj(es), data, build).Ok? <==>
            ResolveEntry(es[0], data, build).Ok? && ResolveEntry(es[1], data, build).Ok?
            && ResolveEntry(es[2], data, build).Ok? && ResolveEntry(es[3], data, build).Ok?
  {
    var r := Resolve(TObj(es), data, build);
    assert r.Ok? <==> forall i :: 0 <= i < |es| ==> ResolveEntry(es[i], data, build).Ok?;
  }

  /** Without filters, the entry of `full_query` for a slot resolves to the slot's name
      and the slot's resolved tree. */
  lemma FullQueryEntries(q: Query, data: Data, build: Builders, rewrite: Rewriters)
    requires q.filters == []
    ensures forall s :: ResolveEntry(FullQuery(q).entries[FullIndex(s)], data, build).Ok? <==> ResolveSlot(q, s, data, build, rewrite).Ok?
    ensures forall s :: ResolveEntry(FullQuery(q).entries[FullIndex(s)], data, build).Ok? ==>
              ResolveEntry(FullQuery(q).entries[FullIndex(s)], data, build).value
              == (JStr(SlotName(s)), ResolveSlot(q, s, data, build, rewrite).value)
  {
    forall s
      ensures ResolveEntry(FullQuery(q).entries[FullIndex(s)], data, build).Ok? <==> ResolveSlot(q, s, data, build, rewrite).Ok?
      ensures ResolveEntry(FullQuery(q).entries[FullIndex(s)], data, build).Ok? ==>
                ResolveEntry(FullQuery(q).entries[FullIndex(s)], data, build).value
                == (JStr(SlotName(s)), ResolveSlot(q, s, data, build, rewrite).value)
    {
      NoFiltersSlot(q, s, data, build, rewrite);
      assert FullQuery(q).entries[FullIndex(s)] == (KLit(JStr(SlotName(s))), SlotTree(q, s));
    }
  }

  /** In a four-entry object keyed size, query, aggs, sort, each entry is found by its key. */
  lemma FullLookup(es: seq<(Json, Json)>, i: nat)
    requires |es| == 4 && i < 4
    requires es[0].0 == JStr("size") && es[1].0 == JStr("query") && es[2].0 == JStr("aggs") && es[3].0 == JStr("sort")
    ensures Lookup(JObj(es), es[i].0) == Some(es[i].1)
  {
    LookupAt(es, i);
  }

  /** Search order does not matter to whether something is found. */
  lemma FirstErrorAny(a: seq<Occ>, b: seq<Occ>, data: Data, build: Builders)
    ensures FirstError(a + b, data, build).Some? <==> FirstError(a, data, build).Some? || FirstError(b, data, build).Some?
  {
    FirstErrorAppend(a, b, data, build);
  }

  /** Without filters, a slot resolves as its own tree, and fails on its first failing occurrence. */
  lemma NoFiltersSlot(q: Query, s: Slot, data: Data, build: Builders, rewrite: Rewriters)
    requires q.filters == []
    ensures ResolveSlot(q, s, data, build, rewrite) == Resolve(SlotTree(q, s), data, build)
    ensures Reports(ResolveSlot(q, s, data, build, rewrite), FirstError(TreeOccs(SlotTree(q, s)), data, build))
  {
    ResolveFailsOnFirstFailure(SlotTree(q, s), data, build);
  }

  /** The assembled document fails exactly when some part's search finds a failing occurrence. */
  lemma AssembleFailsIffSomeFails(rs: seq<Result<Json>>, parts: seq<seq<Occ>>, data: Data, build: Builders)
    requires |rs| == 4 && |parts| == 4
    requires forall k :: 0 <= k < 4 ==> (rs[k].Fail? <==> FirstError(parts[k], data, build).Some?)
    ensures Assemble(rs).Fail? <==> FirstError(parts[0] + parts[1] + parts[2] + parts[3], data, build).Some?
  {
    FirstErrorAny(parts[0] + parts[1] + parts[2], parts[3], data, build);
    FirstErrorAny(parts[0] + parts[1], parts[2], data, build);
    FirstErrorAny(parts[0], parts[1], data, build);
  }

  /** The variable occurrences of the slots, in discovery order. */
  function SlotOccs(q: Query): (os: seq<Occ>)
    ensures Vars(os) == FindAllVariables(q, false)
  {
    OccsVars(q.query);
    OccsVars(q.aggs);
    OccsVars(q.size);
    OccsVars(q.sort);
    VarsAppend(TreeOccs(q.query), TreeOccs(q.aggs));
    VarsAppend(TreeOccs(q.query) + TreeOccs(q.aggs), TreeOccs(q.size));
    VarsAppend(TreeOccs(q.query) + TreeOccs(q.aggs) + TreeOccs(q.size), TreeOccs(q.sort));
    TreeOccs(q.query) + TreeOccs(q.aggs) + TreeOccs(q.size) + TreeOccs(q.sort)
  }

  /** Without filters, a query fails to resolve exactly when some variable that
      discovery lists fails where it stands: a required one the data lacks, or a
      key whose value is a list or mapping. */
  lemma NoFiltersFailIffSomeFails(q: Query, data: Data, build: Builders, rewrite: Rewriters)
    requires q.filters == []
    ensures GetEsQuery(q, data, build, rewrite).Fail? <==> FirstError(SlotOccs(q), data, build).Some?
  {
    var a, b, c, d := TreeOccs(q.query), TreeOccs(q.aggs), TreeOccs(q.size), TreeOccs(q.sort);
    NoFiltersSlotsFail(q, data, build, rewrite);
    FirstErrorSwapMiddle(a, b, c, d, data, build);
  }

  lemma NoFiltersSlotsFail(q: Query, data: Data, build: Builders, rewrite: Rewriters)
    requires q.filters == []
    ensures GetEsQuery(q, data, build, rewrite).Fail? <==>
            FirstError(TreeOccs(q.query) + TreeOccs(q.size) + TreeOccs(q.aggs) + TreeOccs(q.sort), data, build).Some?
  {
    var rs := SlotResults(q, data, build, rewrite);
    NoFiltersSlot(q, QuerySlot, data, build, rewrite);
    NoFiltersSlot(q, SizeSlot, data, build, rewrite);
    NoFiltersSlot(q, AggsSlot, data, build, rewrite);
    NoFiltersSlot(q, SortSlot, data, build, rewrite);
    assert rs[0] == ResolveSlot(q, QuerySlot, data, build, rewrite);
    assert rs[1] == ResolveSlot(q, SizeSlot, data, build, rewrite);
    assert rs[2] == ResolveSlot(q, AggsSlot, data, build, rewrite);
    assert rs[3] == ResolveSlot(q, SortSlot, data, build, rewrite);
    AssembleFailsIffSomeFails(rs, [TreeOccs(q.query), TreeOccs(q.size), TreeOccs(q.aggs), TreeOccs(q.sort)], data, build);
  }

  lemma FirstErrorSwapMiddle(a: seq<Occ>, b: seq<Occ>, c: seq<Occ>, d: seq<Occ>, data: Data, build: Builders)
    ensures FirstError(a + c + b + d, data, build).Some? <==> FirstError(a + b + c + d, data, build).Some?
  {
    FirstErrorAny(a + c + b, d, data, build);
    FirstErrorAny(a + c, b, data, build);
    FirstErrorAny(a, c, data, build);
    FirstErrorAny(a + b + c, d, data, build);
    FirstErrorAny(a + b, c, data, build);
    FirstErrorAny(a, b, data, build);
  }

  /** Without filters, a required variable that discovery lists and the data lacks
      fails the resolution. */
  lemma NoFiltersMissingFails(q: Query, data: Data, build: Builders, rewrite: Rewriters, v: Var)
    requires q.filters == []
    requires v in FindAllVariables(q, false) && Missing(v, data)
    ensures GetEsQuery(q, data, build, rewrite).Fail?
  {
    var os := SlotOccs(q);
    var i :| 0 <= i < |os| && Vars(os)[i] == v;
    assert OccError(os[i], data, build).Some?;
    NoFiltersFailIffSomeFails(q, data, build, rewrite);
  }

  /** Without filters, a failed resolution either names a required variable that
      discovery lists and the data lacks, or reports an unhashable key. */
  lemma NoFiltersErrorNamesMissing(q: Query, data: Data, build: Builders, rewrite: Rewriters)
    requires q.filters == []
    requires GetEsQuery(q, data, build, rewrite).Fail?
    ensures GetEsQuery(q, data, build, rewrite).error == UnhashableKey
            || exists v :: v in FindAllVariables(q, false) && Missing(v, data)
                           && GetEsQuery(q, data, build, rewrite).error == MissingRequiredVariable(v.name)
  {
    var r := GetEsQuery(q, data, build, rewrite);
    var rs := SlotResults(q, data, build, rewrite);
    assert r == Assemble(rs);
    var k :| 0 <= k < 4 && rs[k] == Fail(r.error);
    var s := ResolutionOrder[k];
    NoFiltersSlot(q, s, data, build, rewrite);
    var part := TreeOccs(SlotTree(q, s));
    var i :| 0 <= i < |part| && OccError(part[i], data, build) == Some(r.error);
    if Missing(part[i].v, data) {
      var v := part[i].v;
      OccsVars(SlotTree(q, s));
      assert v == Vars(part)[i];
      assert v in TreeVars(SlotTree(q, s));
      var a, b, c, d := TreeVars(q.query), TreeVars(q.aggs), TreeVars(q.size), TreeVars(q.sort);
      assert FindAllVariables(q, false) == a + b + c + d;
      assert v in a + b + c + d by {
        match s
        case QuerySlot => assert v in a;
        case AggsSlot => assert v in b;
        case SizeSlot => assert v in c;
        case SortSlot => assert v in d;
      }
    }
  }

  /** `find_all_variables()` as the source writes it. A `None` slot, list element or
      mapping value is passed back in as `docs`, where `None` means "called without
      a document": the walk restarts from the slots and never ends, until Python's
      recursion limit raises `RecursionError`. `fuel` bounds the restarts. */
  function DiscoverAsWritten(q: Query, includeFilters: bool, fuel: nat): (r: Result<seq<Var>>)
    ensures r.Fail? ==> r.error == RecursionLimitExceeded
    decreases fuel, 1
  {
    var prev := if includeFilters then FilterVars(q.filters) else [];
    var found :- DiscoverList(q, fuel, [q.query, q.aggs, q.size, q.sort]);
    Ok(prev + found)
  }

  /** The list branch: each element in order. */
  function DiscoverList(q: Query, fuel: nat, ts: seq<Tree>): (r: Result<seq<Var>>)
    ensures r.Fail? ==> r.error == RecursionLimitExceeded
    decreases fuel, 0, ts, 0
  {
    if |ts| == 0 then Ok([])
    else
      var a :- DiscoverElement(q, fuel, ts[0]);
      var b :- DiscoverList(q, fuel, ts[1..]);
      Ok(a + b)
  }

  /** A list element or mapping value: a variable is collected, anything else walked. */
  function DiscoverElement(q: Query, fuel: nat, t: Tree): (r: Result<seq<Var>>)
    ensures r.Fail? ==> r.error == RecursionLimitExceeded
    decreases fuel, 0, t, 2
  {
    if t.TVar? then Ok([t.v]) else DiscoverTree(q, fuel, t)
  }

  /** `find_all_variables(docs, prev)` on a document that is not a variable. */
  function DiscoverTree(q: Query, fuel: nat, t: Tree): (r: Result<seq<Var>>)
    ensures r.Fail? ==> r.error == RecursionLimitExceeded
    decreases fuel, 0, t, 1
  {
    match t
    case TScalar(s) =>
      if !s.Null? then Ok([])
      else if fuel == 0 then Fail(RecursionLimitExceeded)
      else
        var restarted :- DiscoverAsWritten(q, true, fuel - 1);
        Ok([])
    case TVar(_) => Ok([])
    case TList(items) => DiscoverList(q, fuel, items)
    case TObj(entries) => DiscoverEntries(q, fuel, entries)
  }

  /** The mapping branch: per entry, a variable key, then the value as an element. */
  function DiscoverEntries(q: Query, fuel: nat, es: seq<(Key, Tree)>): (r: Result<seq<Var>>)
    ensures r.Fail? ==> r.error == RecursionLimitExceeded
    decreases fuel, 0, es, 0
  {
    if |es| == 0 then Ok([])
    else
      assert es[0].1 < es[0];
      var a :- DiscoverElement(q, fuel, es[0].1);
      var b :- DiscoverEntries(q, fuel, es[1..]);
      Ok(KeyVars(es[0].0) + a + b)
  }

  /** No slot holds `None` outside a mapping key. */
  predicate SlotsNullFree(q: Query) {
    NullFree(q.query) && NullFree(q.aggs) && NullFree(q.size) && NullFree(q.sort)
  }

  lemma SlotListNullFree(q: Query)
    ensures ListNullFree([q.query, q.aggs, q.size, q.sort]) <==> SlotsNullFree(q)
  {
    var ts := [q.query, q.aggs, q.size, q.sort];
    assert ts[1..] == [q.aggs, q.size, q.sort];
    assert ts[1..][1..] == [q.size, q.sort];
    assert ts[1..][1..][1..] == [q.sort];
    assert ts[1..][1..][1..][1..] == [];
    assert ListNullFree([q.sort]) <==> NullFree(q.sort);
    assert ListNullFree([q.size, q.sort]) <==> NullFree(q.size) && NullFree(q.sort);
    assert ListNullFree([q.aggs, q.size, q.sort]) <==> NullFree(q.aggs) && NullFree(q.size) && NullFree(q.sort);
  }

  /** On a template without `None`, the source's discovery ends, whatever the fuel,
      and lists what `FindAllVariables` lists. */
  lemma DiscoverAsWrittenAgrees(q: Query, includeFilters: bool, fuel: nat)
    requires SlotsNullFree(q)
    ensures DiscoverAsWritten(q, includeFilters, fuel) == Ok(FindAllVariables(q, includeFilters))
  {
    SlotListNullFree(q);
    DiscoverListAgrees(q, fuel, [q.query, q.aggs, q.size, q.sort]);
    ListVarsFour(q.query, q.aggs, q.size, q.sort);
  }

  lemma {:induction false} DiscoverElementAgrees(q: Query, fuel: nat, t: Tree)
    requires NullFree(t)
    ensures DiscoverElement(q, fuel, t) == Ok(TreeVars(t))
    decreases t, 2
  {
    match t
    case TScalar(_) =>
    case TVar(_) =>
    case TList(items) => DiscoverListAgrees(q, fuel, items);
    case TObj(entries) => DiscoverEntriesAgrees(q, fuel, entries);
  }

  lemma {:induction false} DiscoverListAgrees(q: Query, fuel: nat, ts: seq<Tree>)
    requires ListNullFree(ts)
    ensures DiscoverList(q, fuel, ts) == Ok(ListVars(ts))
    decreases ts, 0
  {
    if |ts| > 0 {
      DiscoverElementAgrees(q, fuel, ts[0]);
      DiscoverListAgrees(q, fuel, ts[1..]);
    }
  }

  lemma {:induction false} DiscoverEntriesAgrees(q: Query, fuel: nat, es: seq<(Key, Tree)>)
    requires EntriesNullFree(es)
    ensures DiscoverEntries(q, fuel, es) == Ok(EntryVars(es))
    decreases es, 0
  {
    if |es| > 0 {
      assert es[0].1 < es[0];
      DiscoverElementAgrees(q, fuel, es[0].1);
      DiscoverEntriesAgrees(q, fuel, es[1..]);
    }
  }

  /** On a template holding `None`, the source's discovery never ends: every bound
      on the restarts is exhausted. */
  lemma {:induction false} DiscoverAsWrittenDiverges(q: Query, includeFilters: bool, fuel: nat)
    requires !SlotsNullFree(q)
    ensures DiscoverAsWritten(q, includeFilters, fuel) == Fail(RecursionLimitExceeded)
    decreases fuel
  {
    if fuel > 0 {
      DiscoverAsWrittenDiverges(q, true, fuel - 1);
    }
    SlotListNullFree(q);
    DiscoverListDiverges(q, fuel, [q.query, q.aggs, q.size, q.sort]);
  }

  lemma {:induction false} DiscoverElementDiverges(q: Query, fuel: nat, t: Tree)
    requires !NullFree(t)
    requires fuel == 0 || DiscoverAsWritten(q, true, fuel - 1).Fail?
    ensures DiscoverElement(q, fuel, t).Fail?
    decreases t, 2
  {
    match t
    case TScalar(_) =>
    case TList(items) => DiscoverListDiverges(q, fuel, items);
    case TObj(entries) => DiscoverEntriesDiverges(q, fuel, entries);
  }

  lemma {:induction false} DiscoverListDiverges(q: Query, fuel: nat, ts: seq<Tree>)
    requires !ListNullFree(ts)
    requires fuel == 0 || DiscoverAsWritten(q, true, fuel - 1).Fail?
    ensures DiscoverList(q, fuel, ts).Fail?
    decreases ts, 0
  {
    if NullFree(ts[0]) {
      DiscoverElementAgrees(q, fuel, ts[0]);
      DiscoverListDiverges(q, fuel, ts[1..]);
    } else {
      DiscoverElementDiverges(q, fuel, ts[0]);
    }
  }

  lemma {:induction false} DiscoverEntriesDiverges(q: Query, fuel: nat, es: seq<(Key, Tree)>)
    requires !EntriesNullFree(es)
    requires fuel == 0 || DiscoverAsWritten(q, true, fuel - 1).Fail?
    ensures DiscoverEntries(q, fuel, es).Fail?
    decreases es, 0
  {
    assert es[0].1 < es[0];
    if NullFree(es[0].1) {
      DiscoverElementAgrees(q, fuel, es[0].1);
      DiscoverEntriesDiverges(q, fuel, es[1..]);
    } else {
      DiscoverElementDiverges(q, fuel, es[0].1);
    }
  }

  /** `get_es_query(data)` as the source writes it: discovery runs first, for a
      table nothing reads, and its failure is the call's. */
  function GetEsQueryAsWritten(q: Query, data: Data, build: Builders, rewrite: Rewriters, fuel: nat): (r: Result<Json>)
    ensures r.Ok? ==> r == GetEsQuery(q, data, build, rewrite)
    ensures r.Fail? ==> r.error == RecursionLimitExceeded || r == GetEsQuery(q, data, build, rewrite)
  {
    var found :- DiscoverAsWritten(q, true, fuel);
    GetEsQuery(q, data, build, rewrite)
  }

  /** As written, `get_es_query` behaves as intended on templates without `None`
      and fails with `RecursionError` on every other template, whatever the data. */
  lemma GetEsQueryAsWrittenOutcome(q: Query, data: Data, build: Builders, rewrite: Rewriters, fuel: nat)
    ensures SlotsNullFree(q) ==> GetEsQueryAsWritten(q, data, build, rewrite, fuel) == GetEsQuery(q, data, build, rewrite)
    ensures !SlotsNullFree(q) ==> GetEsQueryAsWritten(q, data, build, rewrite, fuel) == Fail(RecursionLimitExceeded)
  {
    if SlotsNullFree(q) {
      DiscoverAsWrittenAgrees(q, true, fuel);
    } else {
      DiscoverAsWrittenDiverges(q, true, fuel);
    }
  }
}

=== FILE: queryfilter.dfy ===
/** Slot-scoped, conditionally applied tree rewrites (esqb/queryfilter.py).

    The source reads `_filter.query_field` in esqb/query.py but never defines it on
    `QueryFilter`; the model gives every filter a `slot`, `query` unless set otherwise,
    which is the default the filter tests rely on. */
module QueryFilters {
  import opened Json
  import opened Results
  import opened Variables
  import opened Trees

  /** The four named regions of a query document. */
  datatype Slot = QuerySlot | SizeSlot | AggsSlot | SortSlot

  /** Names a subclass's `apply` override. */
  type RewriteId = string

  /** What each `apply` override computes: a transform of the slot's tree that may
      read the data. The source calls `apply(query)` while the tests override
      `apply(self, query, data)`; the model passes the data along. */
  type Rewriters = (RewriteId, Tree, Data) -> Tree

  /** The inherited `apply` (the identity) or an override. */
  datatype Rewrite = Identity | Custom(id: RewriteId)

  /** A filter: its slot, whether it is required, the variables it declares (the
      `_variables` mapping, in insertion order) and its `apply`. */
  datatype Filter = Filter(slot: Slot, required: bool, declared: seq<(string, Var)>, rewrite: Rewrite)

  /** A bare `QueryFilter()`: optional, declaring nothing, with the identity `apply`. */
  const DefaultFilter: Filter := Filter(QuerySlot, false, [], Identity)

  /** The loop of `can_apply`: stops at the first declared variable whose name is absent. */
  function AllNamesIn(decl: seq<(string, Var)>, data: Data): (b: bool)
    ensures b <==> forall i :: 0 <= i < |decl| ==> decl[i].1.name in data
  {
    if |decl| == 0 then true
    else if decl[0].1.name !in data then false
    else
      var b := AllNamesIn(decl[1..], data);
      assert forall i :: 1 <= i < |decl| ==> decl[i] == decl[1..][i - 1];
      b
  }

  /** `can_apply(data)`: every declared variable's name is present, whether or not
      the variable itself is required. */
  function CanApply(f: Filter, data: Data): (b: bool)
    ensures b <==> forall i :: 0 <= i < |f.declared| ==> f.declared[i].1.name in data
  {
    AllNamesIn(f.declared, data)
  }

  /** `apply(query, data)`: the identity unless overridden. */
  function Apply(f: Filter, t: Tree, data: Data, rewrite: Rewriters): (r: Tree)
    ensures f.rewrite.Identity? ==> r == t
  {
    match f.rewrite
    case Identity => t
    case Custom(id) => rewrite(id, t, data)
  }

  /** `filter(query, data)`: apply when possible; otherwise skip an optional filter
      and fail a required one. */
  function Call(f: Filter, t: Tree, rewrite: Rewriters, data: Data := map[]): (r: Result<Tree>)
    ensures CanApply(f, data) ==> r == Ok(Apply(f, t, data, rewrite))
    ensures !CanApply(f, data) && !f.required ==> r == Ok(t)
    ensures r.Fail? <==> f.required && exists i :: 0 <= i < |f.declared| && f.declared[i].1.name !in data
    ensures r.Fail? ==> r.error == RequiredFilterUnsatisfied
  {
    if CanApply(f, data) then Ok(Apply(f, t, data, rewrite))
    else if f.required then Fail(RequiredFilterUnsatisfied)
    else Ok(t)
  }

  /** The `variables` property: copies of the declared variables under the same keys;
      an optional filter copies each with `required=False`. The source reads these
      through a `get_variables()` it never defines; the model takes it to be this
      property. */
  function Exposed(f: Filter): (vs: seq<(string, Var)>)
    ensures |vs| == |f.declared|
    ensures forall i :: 0 <= i < |vs| ==> vs[i].0 == f.declared[i].0
    ensures f.required ==> forall i :: 0 <= i < |vs| ==> vs[i].1 == f.declared[i].1
    ensures !f.required ==> forall i :: 0 <= i < |vs| ==> vs[i].1 == f.declared[i].1.(required := false)
  {
    var o := if f.required then NoOverrides else WithRequired(false);
    seq(|f.declared|, i requires 0 <= i < |f.declared| => (f.declared[i].0, Copy(f.declared[i].1, o)))
  }

  /** The values of `variables`, in order. */
  function ExposedVars(f: Filter): (vs: seq<Var>)
    ensures |vs| == |f.declared|
    ensures forall i :: 0 <= i < |vs| ==> vs[i] == Exposed(f)[i].1
  {
    var kv := Exposed(f);
    seq(|kv|, i requires 0 <= i < |kv| => kv[i].1)
  }

  /** An optional filter exposes no required variable. */
  lemma OptionalFilterExposesOptionalVars(f: Filter)
    requires !f.required
    ensures forall i :: 0 <= i < |ExposedVars(f)| ==> !ExposedVars(f)[i].required
  {
  }

  /** An optional filter exposes no required variable, so it never fails a resolution
      through them; its own call can only skip. */
  lemma OptionalFilterSoftens(f: Filter, t: Tree, rewrite: Rewriters, data: Data)
    requires !f.required
    ensures forall i :: 0 <= i < |ExposedVars(f)| ==> !ExposedVars(f)[i].required
    ensures Call(f, t, rewrite, data).Ok?
  {
    OptionalFilterExposesOptionalVars(f);
  }

  /** A filter that declares nothing always applies; a bare filter changes nothing. */
  lemma NoDeclaredVariablesAlwaysApply(f: Filter, t: Tree, rewrite: Rewriters, data: Data)
    requires f.declared == []
    ensures CanApply(f, data)
    ensures Call(f, t, rewrite, data) == Ok(Apply(f, t, data, rewrite))
    ensures Call(DefaultFilter, t, rewrite, data) == Ok(t)
  {
  }
}

=== FILE: results.dfy ===
/** Failure-compatible results and the error kinds of the templating engine. */
module Results {

  /** The ways a resolution can fail: a required variable without a value, a
      required filter that cannot apply, a variable key whose value Python cannot
      hash (`TypeError`), and discovery recursing without end (`RecursionError`). */
  datatype Error =
    | MissingRequiredVariable(name: string)
    | RequiredFilterUnsatisfied
    | UnhashableKey
    | RecursionLimitExceeded

  datatype Option<+T> = None | Some(value: T) {
    function GetOr(default: T): T {
      match this
      case Some(v) => v
      case None => default
    }
  }

  /** Either a value or the first error met; usable with `:-`. */
  datatype Result<+T> = Ok(value: T) | Fail(error: Error) {
    predicate IsFailure() {
      Fail?
    }

    function PropagateFailure<U>(): Result<U>
      requires Fail?
    {
      Fail(error)
    }

    function Extract(): T
      requires Ok?
    {
      value
    }
  }
}

=== FILE: scenarios.dfy ===
/** The literal scenarios of tests/test_es_query_builder.py and tests/test_queryfilter.py,
    stated over the model. */
module Scenarios {
  import opened Json
  import opened Results
  import opened Variables
  import opened Trees
  import opened Substitution
  import opened QueryFilters
  import opened Queries

  /** A query defining only `aggs`. */
  function AggsOnly(aggs: Tree): Query {
    Instantiate(EmptyDefinition.(aggs := Some(aggs)))
  }

  /** `{'x': v}` */
  function XMapping(v: Var): Tree {
    TObj([(KLit(JStr("x")), TVar(v))])
  }

  /** The document with the default `query`, `size` and `sort` and the given `aggs`. */
  function WithAggs(aggs: Json): Json {
    Document([EmptyObj, JInt(0), aggs, EmptyList])
  }

  /** test_contains_var: discovery finds the variable `aggs` was defined with. */
  lemma ContainsVar()
    ensures NewVar("t") in FindAllVariables(AggsOnly(XMapping(NewVar("t"))))
  {
    var q := AggsOnly(XMapping(NewVar("t")));
    EntryVarsSingle((KLit(JStr("x")), TVar(NewVar("t"))));
    assert TreeVars(q.aggs) == [NewVar("t")];
  }

  /** test_can_override_var: the data value replaces the variable; the other slots keep their defaults. */
  lemma CanOverrideVar(build: Builders, rewrite: Rewriters)
    ensures GetEsQuery(AggsOnly(XMapping(NewVar("t"))), map["t" := JStr("v")], build, rewrite)
            == Ok(WithAggs(JObj([(JStr("x"), JStr("v"))])))
  {
    var q := AggsOnly(XMapping(NewVar("t")));
    var data := map["t" := JStr("v")];
    var rs := SlotResults(q, data, build, rewrite);
    assert rs[0] == Ok(EmptyObj);
    assert rs[1] == Ok(JInt(0));
    assert rs[3] == Ok(EmptyList);
    var e := (KLit(JStr("x")), TVar(NewVar("t")));
    assert q.aggs.entries == [e];
    assert ResolveEntry(e, data, build) == Ok((JStr("x"), JStr("v")));
    ResolveOneEntry(e, data, build);
    assert rs[2] == Ok(JObj([(JStr("x"), JStr("v"))]));
    assert seq(4, k requires 0 <= k < 4 => rs[k].value) == [EmptyObj, JInt(0), JObj([(JStr("x"), JStr("v"))]), EmptyList];
  }

  /** A query defining only `aggs` and no filters resolves to the default document
      around the resolved `aggs`. */
  lemma AggsOnlyResolves(aggs: Tree, data: Data, build: Builders, rewrite: Rewriters)
    ensures GetEsQuery(AggsOnly(aggs), data, build, rewrite) ==
            match Resolve(aggs, data, build)
            case Ok(x) => Ok(WithAggs(x))
            case Fail(e) => Fail(e)
  {
    var q := AggsOnly(aggs);
    var rs := AggsOnlySlots(aggs, data, build, rewrite);
    assert GetEsQuery(q, data, build, rewrite) == Assemble(rs);
    if rs[2].Ok? {
      AssembleOk(EmptyObj, JInt(0), rs[2].value, EmptyList);
    }
  }

  lemma AggsOnlySlots(aggs: Tree, data: Data, build: Builders, rewrite: Rewriters) returns (rs: seq<Result<Json>>)
    ensures rs == SlotResults(AggsOnly(aggs), data, build, rewrite)
    ensures rs == [Ok(EmptyObj), Ok(JInt(0)), Resolve(aggs, data, build), Ok(EmptyList)]
  {
    var q := AggsOnly(aggs);
    rs := SlotResults(q, data, build, rewrite);
    NoFiltersSlot(q, QuerySlot, data, build, rewrite);
    NoFiltersSlot(q, SizeSlot, data, build, rewrite);
    NoFiltersSlot(q, AggsSlot, data, build, rewrite);
    NoFiltersSlot(q, SortSlot, data, build, rewrite);
    assert ResolveEntries([], data, build) == Ok([]);
    assert ResolveList([], data, build) == Ok([]);
    assert rs[0] == Ok(EmptyObj);
    assert rs[1] == Ok(JInt(0));
    assert rs[2] == Resolve(aggs, data, build);
    assert rs[3] == Ok(EmptyList);
  }

  /** Four resolved slots assemble into their document. */
  lemma AssembleOk(a: Json, b: Json, c: Json, d: Json)
    ensures Assemble([Ok(a), Ok(b), Ok(c), Ok(d)]) == Ok(Document([a, b, c, d]))
  {
    var rs: seq<Result<Json>> := [Ok(a), Ok(b), Ok(c), Ok(d)];
    assert seq(4, k requires 0 <= k < 4 => rs[k].value) == [a, b, c, d];
  }

  /** `{'x': v}` resolves to `{'x': value}`, or fails as the variable does. */
  lemma XMappingResolves(v: Var, data: Data, build: Builders)
    ensures Resolve(XMapping(v), data, build) ==
            match ValueFromDict(v, Some(data), build)
            case Ok(x) => Ok(JObj([(JStr("x"), x)]))
            case Fail(e) => Fail(e)
  {
    ResolveOneEntry((KLit(JStr("x")), TVar(v)), data, build);
  }

  /** test_uses_default_value: an optional variable absent from the data takes its default. */
  lemma UsesDefaultValue(build: Builders, rewrite: Rewriters)
    ensures var t := NewVar("t", typeTag := BoolType, required := false, default := JScalar(Bool(true)));
            GetEsQuery(AggsOnly(XMapping(t)), map[], build, rewrite) == Ok(WithAggs(JObj([(JStr("x"), JScalar(Bool(true)))])))
  {
    var t := NewVar("t", typeTag := BoolType, required := false, default := JScalar(Bool(true)));
    XMappingResolves(t, map[], build);
    AggsOnlyResolves(XMapping(t), map[], build, rewrite);
  }

  /** test_throws_on_missing_required: a required variable absent from the data fails the resolution. */
  lemma ThrowsOnMissingRequired(build: Builders, rewrite: Rewriters)
    ensures var t := NewVar("t", typeTag := BoolType, required := true);
            GetEsQuery(AggsOnly(XMapping(t)), map[], build, rewrite) == Fail(MissingRequiredVariable("t"))
  {
    var t := NewVar("t", typeTag := BoolType, required := true);
    XMappingResolves(t, map[], build);
    AggsOnlyResolves(XMapping(t), map[], build, rewrite);
  }

  /** `{k: v}` with literal key `k`. */
  function Single(k: string, v: Tree): Tree {
    TObj([(KLit(JStr(k)), v)])
  }

  /** The aggregation of test_complex_query_contains_multiple_vars:
      `{'must': {'bool': [{'match': {Variable('term', default=0): Variable('value', default=0)}}]}}`. */
  function ComplexAggs(): Tree {
    var term := NewVar("term", default := JInt(0));
    var value := NewVar("value", default := JInt(0));
    Single("must", Single("bool", TList([Single("match", TObj([(KVar(term), TVar(value))]))])))
  }

  /** test_complex_query_contains_multiple_vars: a variable key and a variable value,
      deep inside the tree, both take their data values. */
  lemma ComplexQuery(build: Builders, rewrite: Rewriters)
    ensures var data := map["term" := JStr("x"), "value" := JStr("y")];
            var matched := JObj([(JStr("match"), JObj([(JStr("x"), JStr("y"))]))]);
            GetEsQuery(AggsOnly(ComplexAggs()), data, build, rewrite)
            == Ok(WithAggs(JObj([(JStr("must"), JObj([(JStr("bool"), JList([matched]))]))])))
  {
    var data := map["term" := JStr("x"), "value" := JStr("y")];
    var term := NewVar("term", default := JInt(0));
    var value := NewVar("value", default := JInt(0));
    var inner := TObj([(KVar(term), TVar(value))]);
    ResolveOneEntry((KVar(term), TVar(value)), data, build);
    assert Resolve(inner, data, build) == Ok(JObj([(JStr("x"), JStr("y"))]));
    var matchT := Single("match", inner);
    ResolveOneEntry((KLit(JStr("match")), inner), data, build);
    var matched := JObj([(JStr("match"), JObj([(JStr("x"), JStr("y"))]))]);
    assert Resolve(matchT, data, build) == Ok(matched);
    ResolveOneItem(matchT, data, build);
    assert Resolve(TList([matchT]), data, build) == Ok(JList([matched]));
    var boolT := Single("bool", TList([matchT]));
    ResolveOneEntry((KLit(JStr("bool")), TList([matchT])), data, build);
    assert Resolve(boolT, data, build) == Ok(JObj([(JStr("bool"), JList([matched]))]));
    ResolveOneEntry((KLit(JStr("must")), boolT), data, build);
    assert Resolve(ComplexAggs(), data, build) == Ok(JObj([(JStr("must"), JObj([(JStr("bool"), JList([matched]))]))]));
    AggsOnlyResolves(ComplexAggs(), data, build, rewrite);
  }

  /** `aggs = {'x': None}`: the intended discovery finds nothing and resolution
      succeeds, while the source's discovery never ends and `get_es_query` raises
      `RecursionError`, whatever the data. */
  lemma NoneValueNeverResolves(data: Data, build: Builders, rewrite: Rewriters, fuel: nat)
    ensures var q := AggsOnly(Single("x", TScalar(Null)));
            FindAllVariables(q) == []
            && GetEsQuery(q, data, build, rewrite) == Ok(WithAggs(JObj([(JStr("x"), JScalar(Null))])))
            && DiscoverAsWritten(q, true, fuel) == Fail(RecursionLimitExceeded)
            && GetEsQueryAsWritten(q, data, build, rewrite, fuel) == Fail(RecursionLimitExceeded)
  {
    var e := (KLit(JStr("x")), TScalar(Null));
    var q := AggsOnly(Single("x", TScalar(Null)));
    EntryVarsSingle(e);
    assert [e][1..] == [];
    assert !EntriesNullFree([e]);
    assert !SlotsNullFree(q);
    ResolveOneEntry(e, data, build);
    AggsOnlyResolves(Single("x", TScalar(Null)), data, build, rewrite);
    DiscoverAsWrittenDiverges(q, true, fuel);
    GetEsQueryAsWrittenOutcome(q, data, build, rewrite, fuel);
  }

  /** `{Variable('k'): 1}` with a list as the value of `k`: Python cannot hash the
      resolved key, and substitution fails. */
  lemma ListValuedKeyFails(build: Builders)
    ensures Resolve(TObj([(KVar(NewVar("k")), TScalar(Int(1)))]), map["k" := JList([])], build) == Fail(UnhashableKey)
  {
    var e := (KVar(NewVar("k")), TScalar(Int(1)));
    ResolveOneEntry(e, map["k" := JList([])], build);
  }

  /** A query whose only definition is one filter declaring `t` as required. */
  function OneFilterQuery(required: bool, rewrite: Rewrite): Query {
    var f := Filter(QuerySlot, required, [("t", NewVar("t", required := true))], rewrite);
    Instantiate(EmptyDefinition.(filters := Some([f])))
  }

  /** test_queryfilter_adds_optional_vars_if_filter_optional_and_vars_required (and the
      variant where `required` is inherited as False): an optional filter softens its variable. */
  lemma OptionalFilterSoftensRequiredVar()
    ensures |FindAllVariables(OneFilterQuery(false, Identity))| == 1
    ensures !FindAllVariables(OneFilterQuery(false, Identity))[0].required
  {
    var q := OneFilterQuery(false, Identity);
    assert q.filters[1..] == [];
    assert FilterVars(q.filters) == ExposedVars(q.filters[0]);
  }

  /** test_queryfilter_adds_required_vars_if_filter_required_and_vars_required. */
  lemma RequiredFilterKeepsRequiredVar()
    ensures |FindAllVariables(OneFilterQuery(true, Identity))| == 1
    ensures FindAllVariables(OneFilterQuery(true, Identity))[0].required
  {
    var q := OneFilterQuery(true, Identity);
    assert q.filters[1..] == [];
    assert FilterVars(q.filters) == ExposedVars(q.filters[0]);
  }

  /** `{'a': 'b'}`, what the filter of test_queryfilter_filters_query rewrites to. */
  function AB(): Tree {
    Single("a", TScalar(Str("b")))
  }

  /** The override of test_queryfilter_filters_query: every call yields `{'a': 'b'}`. */
  function RewriteToAB(): Rewriters {
    (id, t, d) => AB()
  }

  /** test_queryfilter_filters_query: an optional filter on `query` is skipped while its
      variable is absent and rewrites `query` once it is present. */
  lemma FilterRewritesQuery(build: Builders)
    ensures var q := OneFilterQuery(false, Custom("ab"));
            GetEsQuery(q, map[], build, RewriteToAB()) == Ok(Document([EmptyObj, JInt(0), EmptyObj, EmptyList]))
            && GetEsQuery(q, map["t" := JStr("x")], build, RewriteToAB())
               == Ok(Document([JObj([(JStr("a"), JStr("b"))]), JInt(0), EmptyObj, EmptyList]))
  {
    FilterSkippedWithoutVar(build);
    FilterAppliedWithVar(build);
  }

  lemma FilterSkippedWithoutVar(build: Builders)
    ensures GetEsQuery(OneFilterQuery(false, Custom("ab")), map[], build, RewriteToAB())
            == Ok(Document([EmptyObj, JInt(0), EmptyObj, EmptyList]))
  {
    var rs := FilterQuerySlots(map[], build, Ok(EmptyObj));
    AssembleOk(EmptyObj, JInt(0), EmptyObj, EmptyList);
  }

  lemma FilterAppliedWithVar(build: Builders)
    ensures GetEsQuery(OneFilterQuery(false, Custom("ab")), map["t" := JStr("x")], build, RewriteToAB())
            == Ok(Document([JObj([(JStr("a"), JStr("b"))]), JInt(0), EmptyObj, EmptyList]))
  {
    var data := map["t" := JStr("x")];
    ResolveOneEntry((KLit(JStr("a")), TScalar(Str("b"))), data, build);
    var rs := FilterQuerySlots(data, build, Ok(JObj([(JStr("a"), JStr("b"))])));
    AssembleOk(JObj([(JStr("a"), JStr("b"))]), JInt(0), EmptyObj, EmptyList);
  }

  /** With the filter of test_queryfilter_filters_query, `query` is skipped without `t`
      and rewritten to `{'a': 'b'}` with it; the other slots keep their defaults. */
  lemma FilterQuerySlots(data: Data, build: Builders, first: Result<Json>) returns (rs: seq<Result<Json>>)
    requires first == if "t" in data then Resolve(AB(), data, build) else Ok(EmptyObj)
    ensures rs == SlotResults(OneFilterQuery(false, Custom("ab")), data, build, RewriteToAB())
    ensures rs == [first, Ok(JInt(0)), Ok(EmptyObj), Ok(EmptyList)]
  {
    var q := OneFilterQuery(false, Custom("ab"));
    assert q.filters[1..] == [];
    rs := SlotResults(q, data, build, RewriteToAB());
    assert ResolveEntries([], data, build) == Ok([]);
    assert ResolveList([], data, build) == Ok([]);
    if "t" in data {
      assert Filtered(q, QuerySlot, data, RewriteToAB()) == Ok(AB());
    } else {
      assert Filtered(q, QuerySlot, data, RewriteToAB()) == Ok(EmptyMapping);
    }
    assert rs[0] == first;
    assert rs[1] == Ok(JInt(0));
    assert rs[2] == Ok(EmptyObj);
    assert rs[3] == Ok(EmptyList);
  }
}

=== FILE: tree.dfy ===
/** Template trees: JSON-like data in which variables may stand as values or as keys,
    and the traversal that discovers them (esqb/query.py, `find_all_variables`). */
module Trees {
  import opened Json
  import opened Results
  import opened Variables

  /** A mapping key: a literal, or a variable whose value becomes the key. */
  datatype Key = KLit(j: Json) | KVar(v: Var)

  datatype Tree =
    | TScalar(s: Scalar)
    | TVar(v: Var)
    | TList(items: seq<Tree>)
    | TObj(entries: seq<(Key, Tree)>)

  function KeyVars(k: Key): (vs: seq<Var>)
    ensures k.KVar? ==> vs == [k.v]
    ensures k.KLit? ==> vs == []
  {
    if k.KVar? then [k.v] else []
  }

  /** The variables of a tree in traversal order: list elements in order; for each
      mapping entry, a variable key before whatever its value holds. Scalars hold
      none, and nothing is deduplicated. */
  function TreeVars(t: Tree): (vs: seq<Var>)
    ensures t.TScalar? ==> vs == []
    ensures t.TVar? ==> vs == [t.v]
    ensures t.TList? ==> forall i, v :: 0 <= i < |t.items| && v in TreeVars(t.items[i]) ==> v in vs
    ensures t.TObj? ==> forall i, v :: 0 <= i < |t.entries| && v in EntryOwnVars(t.entries[i]) ==> v in vs
    decreases t, 1
  {
    match t
    case TScalar(_) => []
    case TVar(v) => [v]
    case TList(items) => ListVars(items)
    case TObj(entries) => EntryVars(entries)
  }

  function ListVars(ts: seq<Tree>): (vs: seq<Var>)
    ensures forall i, v :: 0 <= i < |ts| && v in TreeVars(ts[i]) ==> v in vs
    decreases ts, 0
  {
    if |ts| == 0 then []
    else
      assert forall i :: 1 <= i < |ts| ==> ts[i] == ts[1..][i - 1];
      TreeVars(ts[0]) + ListVars(ts[1..])
  }

  /** The variables of one mapping entry: its key's, then its value's. */
  function EntryOwnVars(e: (Key, Tree)): seq<Var>
    decreases e, 0
  {
    assert e.1 < e;
    KeyVars(e.0) + TreeVars(e.1)
  }

  function EntryVars(es: seq<(Key, Tree)>): (vs: seq<Var>)
    ensures forall i, v :: 0 <= i < |es| && v in EntryOwnVars(es[i]) ==> v in vs
    decreases es, 1
  {
    if |es| == 0 then []
    else
      assert forall i :: 1 <= i < |es| ==> es[i] == es[1..][i - 1];
      EntryOwnVars(es[0]) + EntryVars(es[1..])
  }

  /** Discovery over a concatenation of list elements visits the left part first. */
  lemma {:induction false} ListVarsAppend(xs: seq<Tree>, ys: seq<Tree>)
    ensures ListVars(xs + ys) == ListVars(xs) + ListVars(ys)
  {
    if |xs| == 0 {
      assert xs + ys == ys;
    } else {
      assert (xs + ys)[0] == xs[0];
      assert (xs + ys)[1..] == xs[1..] + ys;
      ListVarsAppend(xs[1..], ys);
    }
  }

  lemma ListVarsSingle(t: Tree)
    ensures ListVars([t]) == TreeVars(t)
  {
    assert [t][1..] == [];
  }

  /** Discovery over a literal list of four trees. */
  lemma ListVarsFour(a: Tree, b: Tree, c: Tree, d: Tree)
    ensures ListVars([a, b, c, d]) == TreeVars(a) + TreeVars(b) + TreeVars(c) + TreeVars(d)
  {
    var ab := [a] + [b];
    var abc := ab + [c];
    ListVarsAppend([a], [b]);
    ListVarsAppend(ab, [c]);
    ListVarsAppend(abc, [d]);
    ListVarsSingle(a);
    ListVarsSingle(b);
    ListVarsSingle(c);
    ListVarsSingle(d);
    assert abc + [d] == [a, b, c, d];
  }

  /** The same for mapping entries. */
  lemma {:induction false} EntryVarsAppend(xs: seq<(Key, Tree)>, ys: seq<(Key, Tree)>)
    ensures EntryVars(xs + ys) == EntryVars(xs) + EntryVars(ys)
  {
    if |xs| == 0 {
      assert xs + ys == ys;
    } else {
      assert (xs + ys)[0] == xs[0];
      assert (xs + ys)[1..] == xs[1..] + ys;
      EntryVarsAppend(xs[1..], ys);
    }
  }

  lemma EntryVarsSingle(e: (Key, Tree))
    ensures EntryVars([e]) == KeyVars(e.0) + TreeVars(e.1)
  {
    assert [e][1..] == [];
  }

  /** Discovery over a literal mapping of four entries. */
  lemma EntryVarsFour(a: (Key, Tree), b: (Key, Tree), c: (Key, Tree), d: (Key, Tree))
    ensures EntryVars([a, b, c, d]) == EntryVars([a]) + EntryVars([b]) + EntryVars([c]) + EntryVars([d])
  {
    var ab := [a] + [b];
    var abc := ab + [c];
    EntryVarsAppend([a], [b]);
    EntryVarsAppend(ab, [c]);
    EntryVarsAppend(abc, [d]);
    assert abc + [d] == [a, b, c, d];
  }

  /** A tree with no variable anywhere: plain JSON. */
  predicate VarFree(t: Tree)
    decreases t, 1
  {
    match t
    case TScalar(_) => true
    case TVar(_) => false
    case TList(items) => ListVarFree(items)
    case TObj(entries) => EntriesVarFree(entries)
  }

  predicate ListVarFree(ts: seq<Tree>)
    decreases ts, 0
  {
    |ts| == 0 || (VarFree(ts[0]) && ListVarFree(ts[1..]))
  }

  predicate EntriesVarFree(es: seq<(Key, Tree)>)
    decreases es, 0
  {
    |es| == 0 || (es[0].0.KLit? && (assert es[0].1 < es[0]; VarFree(es[0].1)) && EntriesVarFree(es[1..]))
  }

  /** Discovery finds nothing exactly in the variable-free trees. */
  lemma {:induction false} VarFreeIffNoVars(t: Tree)
    ensures VarFree(t) <==> TreeVars(t) == []
    decreases t, 1
  {
    match t
    case TScalar(_) =>
    case TVar(_) =>
    case TList(items) => ListVarFreeIffNoVars(items);
    case TObj(entries) => EntriesVarFreeIffNoVars(entries);
  }

  lemma {:induction false} ListVarFreeIffNoVars(ts: seq<Tree>)
    ensures ListVarFree(ts) <==> ListVars(ts) == []
    decreases ts, 0
  {
    if |ts| > 0 {
      VarFreeIffNoVars(ts[0]);
      ListVarFreeIffNoVars(ts[1..]);
    }
  }

  lemma {:induction false} EntriesVarFreeIffNoVars(es: seq<(Key, Tree)>)
    ensures EntriesVarFree(es) <==> EntryVars(es) == []
    decreases es, 0
  {
    if |es| > 0 {
      assert es[0].1 < es[0];
      VarFreeIffNoVars(es[0].1);
      EntriesVarFreeIffNoVars(es[1..]);
    }
  }

  /** A JSON value written as a template: literal keys, no variables. */
  function Embed(j: Json): (t: Tree)
    ensures VarFree(t)
    decreases j, 1
  {
    match j
    case JScalar(s) => TScalar(s)
    case JList(items) => TList(EmbedList(items))
    case JObj(entries) => TObj(EmbedEntries(entries))
  }

  function EmbedList(js: seq<Json>): (ts: seq<Tree>)
    ensures |ts| == |js| && ListVarFree(ts)
    decreases js, 0
  {
    if |js| == 0 then [] else [Embed(js[0])] + EmbedList(js[1..])
  }

  function EmbedEntries(es: seq<(Json, Json)>): (ts: seq<(Key, Tree)>)
    ensures |ts| == |es| && EntriesVarFree(ts)
    decreases es, 0
  {
    if |es| == 0 then []
    else
      assert es[0].1 < es[0];
      [(KLit(es[0].0), Embed(es[0].1))] + EmbedEntries(es[1..])
  }

  /** The JSON value a variable-free template stands for. */
  function Erase(t: Tree): (j: Json)
    requires VarFree(t)
    ensures Embed(j) == t
    decreases t, 1
  {
    match t
    case TScalar(s) => JScalar(s)
    case TList(items) => JList(EraseList(items))
    case TObj(entries) => JObj(EraseEntries(entries))
  }

  function EraseList(ts: seq<Tree>): (js: seq<Json>)
    requires ListVarFree(ts)
    ensures EmbedList(js) == ts
    decreases ts, 0
  {
    if |ts| == 0 then [] else [Erase(ts[0])] + EraseList(ts[1..])
  }

  function EraseEntries(es: seq<(Key, Tree)>): (js: seq<(Json, Json)>)
    requires EntriesVarFree(es)
    ensures EmbedEntries(js) == es
    decreases es, 0
  {
    if |es| == 0 then []
    else
      assert es[0].1 < es[0];
      [(es[0].0.j, Erase(es[0].1))] + EraseEntries(es[1..])
  }

  /** Erasing an embedded value gives the value back. */
  lemma {:induction false} EraseEmbed(j: Json)
    ensures Erase(Embed(j)) == j
    decreases j, 1
  {
    match j
    case JScalar(_) =>
    case JList(items) => EraseEmbedList(items);
    case JObj(entries) => EraseEmbedEntries(entries);
  }

  lemma {:induction false} EraseEmbedList(js: seq<Json>)
    ensures EraseList(EmbedList(js)) == js
    decreases js, 0
  {
    if |js| > 0 {
      EraseEmbed(js[0]);
      EraseEmbedList(js[1..]);
    }
  }

  lemma {:induction false} EraseEmbedEntries(es: seq<(Json, Json)>)
    ensures EraseEntries(EmbedEntries(es)) == es
    decreases es, 0
  {
    if |es| > 0 {
      assert es[0].1 < es[0];
      EraseEmbed(es[0].1);
      EraseEmbedEntries(es[1..]);
    }
  }

  /** One place a variable stands in a tree: as a mapping key, or as a value. */
  datatype Occ = Occ(v: Var, asKey: bool)

  function KeyOccs(k: Key): (os: seq<Occ>)
    ensures k.KVar? ==> os == [Occ(k.v, true)]
    ensures k.KLit? ==> os == []
  {
    if k.KVar? then [Occ(k.v, true)] else []
  }

  /** The variable occurrences of a tree, in the order of `TreeVars`. */
  function TreeOccs(t: Tree): seq<Occ>
    decreases t, 1
  {
    match t
    case TScalar(_) => []
    case TVar(v) => [Occ(v, false)]
    case TList(items) => ListOccs(items)
    case TObj(entries) => EntryOccs(entries)
  }

  function ListOccs(ts: seq<Tree>): seq<Occ>
    decreases ts, 0
  {
    if |ts| == 0 then [] else TreeOccs(ts[0]) + ListOccs(ts[1..])
  }

  function EntryOccs(es: seq<(Key, Tree)>): seq<Occ>
    decreases es, 0
  {
    if |es| == 0 then []
    else
      assert es[0].1 < es[0];
      KeyOccs(es[0].0) + TreeOccs(es[0].1) + EntryOccs(es[1..])
  }

  /** The variables of some occurrences, in order. */
  function Vars(os: seq<Occ>): (vs: seq<Var>)
    ensures |vs| == |os| && forall i :: 0 <= i < |os| ==> vs[i] == os[i].v
  {
    seq(|os|, i requires 0 <= i < |os| => os[i].v)
  }

  lemma VarsAppend(a: seq<Occ>, b: seq<Occ>)
    ensures Vars(a + b) == Vars(a) + Vars(b)
  {
  }

  /** The occurrences of a tree are its variables, each marked with its position. */
  lemma {:induction false} OccsVars(t: Tree)
    ensures Vars(TreeOccs(t)) == TreeVars(t)
    decreases t, 1
  {
    match t
    case TScalar(_) =>
    case TVar(v) =>
    case TList(items) => ListOccsVars(items);
    case TObj(entries) => EntryOccsVars(entries);
  }

  lemma {:induction false} ListOccsVars(ts: seq<Tree>)
    ensures Vars(ListOccs(ts)) == ListVars(ts)
    decreases ts, 0
  {
    if |ts| > 0 {
      OccsVars(ts[0]);
      ListOccsVars(ts[1..]);
      VarsAppend(TreeOccs(ts[0]), ListOccs(ts[1..]));
    }
  }

  lemma {:induction false} EntryOccsVars(es: seq<(Key, Tree)>)
    ensures Vars(EntryOccs(es)) == EntryVars(es)
    decreases es, 1
  {
    if |es| > 0 {
      assert es[0].1 < es[0];
      OccsVars(es[0].1);
      EntryOccsVars(es[1..]);
      VarsAppend(KeyOccs(es[0].0) + TreeOccs(es[0].1), EntryOccs(es[1..]));
      VarsAppend(KeyOccs(es[0].0), TreeOccs(es[0].1));
    }
  }

  /** A tree without `None` anywhere, mapping keys aside. */
  predicate NullFree(t: Tree)
    decreases t, 1
  {
    match t
    case TScalar(s) => !s.Null?
    case TVar(_) => true
    case TList(items) => ListNullFree(items)
    case TObj(entries) => EntriesNullFree(entries)
  }

  predicate ListNullFree(ts: seq<Tree>)
    decreases ts, 0
  {
    |ts| == 0 || (NullFree(ts[0]) && ListNullFree(ts[1..]))
  }

  predicate EntriesNullFree(es: seq<(Key, Tree)>)
    decreases es, 0
  {
    |es| == 0 || ((assert es[0].1 < es[0]; NullFree(es[0].1)) && EntriesNullFree(es[1..]))
  }
}

=== FILE: utils.dfy ===
/** Variable substitution over a template tree (esqb/utils.py, `replace_variables`). */
module Substitution {
  import opened Json
  import opened Results
  import opened Variables
  import opened Trees

  /** A mapping key after resolution: a variable key is replaced by its value, which
      must be hashable to serve as a Python dict key. Literal keys are hashable in
      the source by construction. */
  function ResolveKey(k: Key, data: Data, build: Builders): (r: Result<Json>)
    ensures k.KLit? ==> r == Ok(k.j)
    ensures k.KVar? && r.Ok? ==> ValueFromDict(k.v, Some(data), build) == r && Hashable(r.value)
    ensures k.KVar? && r.Fail? ==>
              (ValueFromDict(k.v, Some(data), build).Fail? && r == ValueFromDict(k.v, Some(data), build))
              || (ValueFromDict(k.v, Some(data), build).Ok? && !Hashable(ValueFromDict(k.v, Some(data), build).value)
                  && r == Fail(UnhashableKey))
  {
    match k
    case KLit(j) => Ok(j)
    case KVar(v) =>
      var x :- ValueFromDict(v, Some(data), build);
      if Hashable(x) then Ok(x) else Fail(UnhashableKey)
  }

  /** `replace_variables(t, data)`: every variable, wherever it stands, is replaced
      by its value; the first failing variable (a missing required one, or a key
      whose value is a list or mapping) fails the whole call. */
  function Resolve(t: Tree, data: Data, build: Builders): (r: Result<Json>)
    ensures t.TScalar? ==> r == Ok(JScalar(t.s))
    ensures t.TVar? ==> r == ValueFromDict(t.v, Some(data), build)
    ensures t.TList? && r.Ok? ==>
              r.value.JList? && |r.value.items| == |t.items|
              && forall i :: 0 <= i < |t.items| ==> Resolve(t.items[i], data, build) == Ok(r.value.items[i])
    ensures t.TList? ==> (r.Ok? <==> forall i :: 0 <= i < |t.items| ==> Resolve(t.items[i], data, build).Ok?)
    ensures t.TObj? && r.Ok? ==>
              r.value.JObj? && |r.value.entries| == |t.entries|
              && forall i :: 0 <= i < |t.entries| ==> ResolveEntry(t.entries[i], data, build) == Ok(r.value.entries[i])
    ensures t.TObj? ==> (r.Ok? <==> forall i :: 0 <= i < |t.entries| ==> ResolveEntry(t.entries[i], data, build).Ok?)
    decreases t, 2
  {
    match t
    case TScalar(s) => Ok(JScalar(s))
    case TVar(v) => ValueFromDict(v, Some(data), build)
    case TList(items) =>
      var xs :- ResolveList(items, data, build);
      Ok(JList(xs))
    case TObj(entries) =>
      var es :- ResolveEntries(entries, data, build);
      Ok(JObj(es))
  }

  /** A list resolves element by element, in order. */
  function ResolveList(ts: seq<Tree>, data: Data, build: Builders): (r: Result<seq<Json>>)
    ensures r.Ok? <==> forall i :: 0 <= i < |ts| ==> Resolve(ts[i], data, build).Ok?
    ensures r.Ok? ==> |r.value| == |ts|
                      && forall i :: 0 <= i < |ts| ==> Resolve(ts[i], data, build) == Ok(r.value[i])
    decreases ts, 1
  {
    if |ts| == 0 then Ok([])
    else
      var x :- Resolve(ts[0], data, build);
      var xs :- ResolveList(ts[1..], data, build);
      assert forall i :: 1 <= i < |ts| ==> ts[i] == ts[1..][i - 1];
      Ok([x] + xs)
  }

  /** One mapping entry: the key is resolved first, then its value. */
  function ResolveEntry(e: (Key, Tree), data: Data, build: Builders): (r: Result<(Json, Json)>)
    ensures r.Ok? <==> ResolveKey(e.0, data, build).Ok? && Resolve(e.1, data, build).Ok?
    ensures r.Ok? ==> ResolveKey(e.0, data, build) == Ok(r.value.0) && Resolve(e.1, data, build) == Ok(r.value.1)
    decreases e, 0
  {
    assert e.1 < e;
    var k :- ResolveKey(e.0, data, build);
    var v :- Resolve(e.1, data, build);
    Ok((k, v))
  }

  /** A mapping resolves entry by entry, in order. */
  function ResolveEntries(es: seq<(Key, Tree)>, data: Data, build: Builders): (r: Result<seq<(Json, Json)>>)
    ensures r.Ok? <==> forall i :: 0 <= i < |es| ==> ResolveEntry(es[i], data, build).Ok?
    ensures r.Ok? ==> |r.value| == |es|
                      && forall i :: 0 <= i < |es| ==> ResolveEntry(es[i], data, build) == Ok(r.value[i])
    decreases es, 1
  {
    if |es| == 0 then Ok([])
    else
      var e :- ResolveEntry(es[0], data, build);
      var rest :- ResolveEntries(es[1..], data, build);
      assert forall i :: 1 <= i < |es| ==> es[i] == es[1..][i - 1];
      Ok([e] + rest)
  }

  /** A one-entry mapping resolves as its entry. */
  lemma ResolveOneEntry(e: (Key, Tree), data: Data, build: Builders)
    ensures ResolveEntries([e], data, build) ==
            match ResolveEntry(e, data, build)
            case Ok(p) => Ok([p])
            case Fail(err) => Fail(err)
  {
    assert [e][0] == e && [e][1..] == [];
    assert ResolveEntries([], data, build) == Ok([]);
    match ResolveEntry(e, data, build)
    case Ok(p) =>
      assert [p] + [] == [p];
    case Fail(err) =>
  }

  /** A one-element list resolves as its element. */
  lemma ResolveOneItem(t: Tree, data: Data, build: Builders)
    ensures ResolveList([t], data, build) ==
            match Resolve(t, data, build)
            case Ok(x) => Ok([x])
            case Fail(err) => Fail(err)
  {
    assert [t][0] == t && [t][1..] == [];
    assert ResolveList([], data, build) == Ok([]);
    match Resolve(t, data, build)
    case Ok(x) =>
      assert [x] + [] == [x];
    case Fail(err) =>
  }

  /** A variable-free tree resolves to the JSON value it stands for, whatever the data. */
  lemma {:induction false} ResolveVarFree(t: Tree, data: Data, build: Builders)
    requires VarFree(t)
    ensures Resolve(t, data, build) == Ok(Erase(t))
    decreases t, 2
  {
    match t
    case TScalar(_) =>
    case TList(items) => ResolveListVarFree(items, data, build);
    case TObj(entries) => ResolveEntriesVarFree(entries, data, build);
  }

  lemma {:induction false} ResolveListVarFree(ts: seq<Tree>, data: Data, build: Builders)
    requires ListVarFree(ts)
    ensures ResolveList(ts, data, build) == Ok(EraseList(ts))
    decreases ts, 1
  {
    if |ts| > 0 {
      ResolveVarFree(ts[0], data, build);
      ResolveListVarFree(ts[1..], data, build);
    }
  }

  lemma {:induction false} ResolveEntriesVarFree(es: seq<(Key, Tree)>, data: Data, build: Builders)
    requires EntriesVarFree(es)
    ensures ResolveEntries(es, data, build) == Ok(EraseEntries(es))
    decreases es, 1
  {
    if |es| > 0 {
      assert es[0].1 < es[0];
      ResolveVarFree(es[0].1, data, build);
      ResolveEntriesVarFree(es[1..], data, build);
    }
  }

  /** Substitution inverts embedding: a plain JSON value comes back unchanged. */
  lemma ResolveEmbedded(j: Json, data: Data, build: Builders)
    ensures Resolve(Embed(j), data, build) == Ok(j)
  {
    ResolveVarFree(Embed(j), data, build);
    EraseEmbed(j);
  }

  /** Why resolving one variable occurrence fails, if it does: a required variable
      the data lacks, or a key whose value Python cannot hash. */
  function OccError(o: Occ, data: Data, build: Builders): (r: Option<Error>)
    ensures Missing(o.v, data) ==> r == Some(MissingRequiredVariable(o.v.name))
    ensures !Missing(o.v, data) ==>
              (r.Some? <==> o.asKey && !Hashable(ValueFromDict(o.v, Some(data), build).value))
    ensures !Missing(o.v, data) && r.Some? ==> r.value == UnhashableKey
  {
    match ValueFromDict(o.v, Some(data), build)
    case Fail(e) => Some(e)
    case Ok(x) => if o.asKey && !Hashable(x) then Some(UnhashableKey) else None
  }

  /** The error of the first failing occurrence of `os`, in order. */
  function FirstError(os: seq<Occ>, data: Data, build: Builders): (r: Option<Error>)
    ensures r.None? <==> forall i :: 0 <= i < |os| ==> OccError(os[i], data, build).None?
    ensures r.Some? ==> exists i :: 0 <= i < |os| && OccError(os[i], data, build) == r
                          && forall j :: 0 <= j < i ==> OccError(os[j], data, build).None?
  {
    if |os| == 0 then None
    else if OccError(os[0], data, build).Some? then OccError(os[0], data, build)
    else
      var r := FirstError(os[1..], data, build);
      assert forall i :: 1 <= i < |os| ==> os[i] == os[1..][i - 1];
      if r.Some? then
        var i :| 0 <= i < |os[1..]| && OccError(os[1..][i], data, build) == r
                 && forall j :: 0 <= j < i ==> OccError(os[1..][j], data, build).None?;
        assert os[i + 1] == os[1..][i];
        r
      else r
  }

  /** Searching a concatenation searches the left part first. */
  lemma {:induction false} FirstErrorAppend(a: seq<Occ>, b: seq<Occ>, data: Data, build: Builders)
    ensures FirstError(a + b, data, build) ==
            if FirstError(a, data, build).Some? then FirstError(a, data, build) else FirstError(b, data, build)
  {
    if |a| > 0 {
      assert (a + b)[1..] == a[1..] + b;
      FirstErrorAppend(a[1..], b, data, build);
    } else {
      assert a + b == b;
    }
  }

  /** `r` fails exactly when `e` holds an error, and then with that error. */
  predicate Reports<T>(r: Result<T>, e: Option<Error>) {
    (r.Fail? <==> e.Some?) && (r.Fail? ==> r.error == e.value)
  }

  /** Substitution fails exactly when some variable occurrence of the tree fails, and
      it reports the first one in traversal order. */
  lemma {:induction false} ResolveFailsOnFirstFailure(t: Tree, data: Data, build: Builders)
    ensures Reports(Resolve(t, data, build), FirstError(TreeOccs(t), data, build))
    decreases t, 2
  {
    match t
    case TScalar(_) =>
    case TVar(v) =>
      assert FirstError([Occ(v, false)], data, build) == OccError(Occ(v, false), data, build);
    case TList(items) => ResolveListFailsOnFirstFailure(items, data, build);
    case TObj(entries) => ResolveEntriesFailsOnFirstFailure(entries, data, build);
  }

  lemma {:induction false} ResolveListFailsOnFirstFailure(ts: seq<Tree>, data: Data, build: Builders)
    ensures Reports(ResolveList(ts, data, build), FirstError(ListOccs(ts), data, build))
    decreases ts, 1
  {
    if |ts| > 0 {
      ResolveFailsOnFirstFailure(ts[0], data, build);
      ResolveListFailsOnFirstFailure(ts[1..], data, build);
      FirstErrorAppend(TreeOccs(ts[0]), ListOccs(ts[1..]), data, build);
    }
  }

  lemma {:induction false} ResolveEntryFailsOnFirstFailure(e: (Key, Tree), data: Data, build: Builders)
    ensures Reports(ResolveEntry(e, data, build), FirstError(KeyOccs(e.0) + TreeOccs(e.1), data, build))
    decreases e, 0
  {
    assert e.1 < e;
    ResolveFailsOnFirstFailure(e.1, data, build);
    FirstErrorAppend(KeyOccs(e.0), TreeOccs(e.1), data, build);
    if e.0.KVar? {
      var o := Occ(e.0.v, true);
      assert FirstError([o], data, build) == OccError(o, data, build);
    }
  }

  lemma {:induction false} ResolveEntriesFailsOnFirstFailure(es: seq<(Key, Tree)>, data: Data, build: Builders)
    ensures Reports(ResolveEntries(es, data, build), FirstError(EntryOccs(es), data, build))
    decreases es, 1
  {
    if |es| > 0 {
      assert es[0].1 < es[0];
      ResolveEntryFailsOnFirstFailure(es[0], data, build);
      ResolveEntriesFailsOnFirstFailure(es[1..], data, build);
      FirstErrorAppend(KeyOccs(es[0].0) + TreeOccs(es[0].1), EntryOccs(es[1..]), data, build);
    }
  }

  /** A required variable missing from the data, wherever it stands, fails substitution. */
  lemma ResolveFailsOnMissing(t: Tree, data: Data, build: Builders, v: Var)
    requires v in TreeVars(t) && Missing(v, data)
    ensures Resolve(t, data, build).Fail?
  {
    OccsVars(t);
    var os := TreeOccs(t);
    var i :| 0 <= i < |os| && os[i].v == v;
    assert OccError(os[i], data, build).Some?;
    ResolveFailsOnFirstFailure(t, data, build);
  }

  /** `d1` and `d2` hold the same values under the names of `vs`. */
  predicate AgreeOn(d1: Data, d2: Data, vs: seq<Var>) {
    forall i :: 0 <= i < |vs| ==>
      (vs[i].name in d1 <==> vs[i].name in d2) && (vs[i].name in d1 ==> d1[vs[i].name] == d2[vs[i].name])
  }

  lemma AgreeOnSplit(d1: Data, d2: Data, a: seq<Var>, b: seq<Var>)
    requires AgreeOn(d1, d2, a + b)
    ensures AgreeOn(d1, d2, a) && AgreeOn(d1, d2, b)
  {
    assert forall i :: 0 <= i < |a| ==> a[i] == (a + b)[i];
    assert forall i :: 0 <= i < |b| ==> b[i] == (a + b)[|a| + i];
  }

  /** Substitution reads the data only under the names of the tree's variables. */
  lemma {:induction false} ResolveLocal(t: Tree, d1: Data, d2: Data, build: Builders)
    requires AgreeOn(d1, d2, TreeVars(t))
    ensures Resolve(t, d1, build) == Resolve(t, d2, build)
    decreases t, 2
  {
    match t
    case TScalar(_) =>
    case TVar(v) =>
      assert TreeVars(t)[0] == v;
      ValueFromDictLocal(v, d1, d2, build);
    case TList(items) => ResolveListLocal(items, d1, d2, build);
    case TObj(entries) => ResolveEntriesLocal(entries, d1, d2, build);
  }

  lemma {:induction false} ResolveListLocal(ts: seq<Tree>, d1: Data, d2: Data, build: Builders)
    requires AgreeOn(d1, d2, ListVars(ts))
    ensures ResolveList(ts, d1, build) == ResolveList(ts, d2, build)
    decreases ts, 1
  {
    if |ts| > 0 {
      AgreeOnSplit(d1, d2, TreeVars(ts[0]), ListVars(ts[1..]));
      ResolveLocal(ts[0], d1, d2, build);
      ResolveListLocal(ts[1..], d1, d2, build);
    }
  }

  lemma {:induction false} ResolveEntriesLocal(es: seq<(Key, Tree)>, d1: Data, d2: Data, build: Builders)
    requires AgreeOn(d1, d2, EntryVars(es))
    ensures ResolveEntries(es, d1, build) == ResolveEntries(es, d2, build)
    decreases es, 1
  {
    if |es| > 0 {
      var e := es[0];
      assert e.1 < e;
      assert EntryVars(es) == EntryOwnVars(e) + EntryVars(es[1..]);
      assert EntryOwnVars(e) == KeyVars(e.0) + TreeVars(e.1);
      AgreeOnSplit(d1, d2, KeyVars(e.0) + TreeVars(e.1), EntryVars(es[1..]));
      AgreeOnSplit(d1, d2, KeyVars(e.0), TreeVars(e.1));
      if e.0.KVar? {
        assert KeyVars(e.0)[0] == e.0.v;
        ValueFromDictLocal(e.0.v, d1, d2, build);
      }
      ResolveLocal(e.1, d1, d2, build);
      assert ResolveEntry(e, d1, build) == ResolveEntry(e, d2, build);
      ResolveEntriesLocal(es[1..], d1, d2, build);
    }
  }
}

=== FILE: variable.dfy ===
/** A named, typed placeholder embedded in a query template (esqb/variable.py). */
module Variables {
  import opened Json
  import opened Results

  /** The `type` a variable declares. It is informational only: resolution never checks it. */
  datatype TypeTag = IntType | FloatType | StrType | BoolType | ListType

  /** Names a builder, the optional transform applied to a resolved value. */
  type BuilderId = string

  /** What each builder computes. Builders are arbitrary Python callables, so the
      model takes their meaning as a parameter rather than storing functions in a
      variable (which would cost variables their equality). */
  type Builders = (BuilderId, Json) -> Json

  datatype Var = Var(
    name: string,
    default: Json,
    typeTag: TypeTag,
    required: bool,
    helpText: string,
    serializerOptions: seq<(string, Json)>,
    serializerClass: Option<string>,
    builder: Option<BuilderId>)

  const UnknownVariable: string := "Unknown variable"

  /** The constructor, with the source's defaults. An absent (or empty)
      `serializer_options` becomes the empty mapping. */
  function NewVar(
    name: string,
    default: Json := JScalar(Null),
    typeTag: TypeTag := StrType,
    required: bool := false,
    helpText: string := UnknownVariable,
    serializerClass: Option<string> := None,
    serializerOptions: Option<seq<(string, Json)>> := None,
    builder: Option<BuilderId> := None): (v: Var)
    ensures v.name == name && v.default == default && v.typeTag == typeTag
    ensures v.required == required && v.helpText == helpText
    ensures v.serializerClass == serializerClass && v.builder == builder
    ensures v.serializerOptions == serializerOptions.GetOr([])
  {
    Var(name, default, typeTag, required, helpText, serializerOptions.GetOr([]), serializerClass, builder)
  }

  /** `Variable(name)` takes default None, type str, not required, help text
      "Unknown variable", no serializer settings and no builder. */
  lemma NewVarDefaults(name: string)
    ensures NewVar(name) == Var(name, JScalar(Null), StrType, false, "Unknown variable", [], None, None)
  {
  }

  /** The keyword arguments of `copy(**kwargs)`: `None` means "not passed".
      `serializerOptions := Some(None)` passes an explicit `None`. */
  datatype Overrides = Overrides(
    name: Option<string>,
    default: Option<Json>,
    typeTag: Option<TypeTag>,
    required: Option<bool>,
    helpText: Option<string>,
    serializerClass: Option<Option<string>>,
    serializerOptions: Option<Option<seq<(string, Json)>>>,
    builder: Option<Option<BuilderId>>)

  const NoOverrides: Overrides := Overrides(None, None, None, None, None, None, None, None)

  /** `copy(**kwargs)`: every attribute of `v`, replaced by the overrides passed,
      fed back through the constructor. */
  function Copy(v: Var, o: Overrides): (c: Var)
    ensures c.name == o.name.GetOr(v.name)
    ensures c.default == o.default.GetOr(v.default)
    ensures c.typeTag == o.typeTag.GetOr(v.typeTag)
    ensures c.required == o.required.GetOr(v.required)
    ensures c.helpText == o.helpText.GetOr(v.helpText)
    ensures c.serializerClass == o.serializerClass.GetOr(v.serializerClass)
    ensures c.builder == o.builder.GetOr(v.builder)
    ensures o.serializerOptions.None? ==> c.serializerOptions == v.serializerOptions
    ensures o.serializerOptions.Some? ==> c.serializerOptions == o.serializerOptions.value.GetOr([])
  {
    NewVar(
      o.name.GetOr(v.name),
      default := o.default.GetOr(v.default),
      typeTag := o.typeTag.GetOr(v.typeTag),
      required := o.required.GetOr(v.required),
      helpText := o.helpText.GetOr(v.helpText),
      serializerClass := o.serializerClass.GetOr(v.serializerClass),
      serializerOptions := o.serializerOptions.GetOr(Some(v.serializerOptions)),
      builder := o.builder.GetOr(v.builder))
  }

  /** Overrides that only set `required`. */
  function WithRequired(b: bool): Overrides {
    NoOverrides.(required := Some(b))
  }

  /** `copy()` with no arguments gives back an equal variable. */
  lemma CopyNoOverrides(v: Var)
    ensures Copy(v, NoOverrides) == v
  {
  }

  /** `copy(required=b)` changes `required` and nothing else. */
  lemma CopyRequiredOnly(v: Var, b: bool)
    ensures Copy(v, WithRequired(b)) == v.(required := b)
  {
  }

  /** Copying twice with the same overrides is the same as copying once. */
  lemma CopyIdempotent(v: Var, o: Overrides)
    ensures Copy(Copy(v, o), o) == Copy(v, o)
  {
  }

  /** `d` as `value_from_dict` sees it: a missing mapping is an empty one. */
  function DataOrEmpty(d: Option<Data>): Data {
    d.GetOr(map[])
  }

  /** A required variable whose name `data` does not hold. */
  predicate Missing(v: Var, data: Data) {
    v.required && v.name !in data
  }

  /** `value_from_dict(d)`: fails for a missing required variable; otherwise the
      data value or the default, passed through the builder when one is set. */
  function ValueFromDict(v: Var, d: Option<Data>, build: Builders): (r: Result<Json>)
    ensures var m := DataOrEmpty(d);
      (r.Fail? <==> Missing(v, m))
      && (r.Fail? ==> r.error == MissingRequiredVariable(v.name))
      && (r.Ok? && v.builder.None? && v.name in m ==> r.value == m[v.name])
      && (r.Ok? && v.builder.None? && v.name !in m ==> r.value == v.default)
      && (r.Ok? && v.builder.Some? ==>
            r.value == build(v.builder.value, if v.name in m then m[v.name] else v.default))
  {
    var m := if d.None? then map[] else d.value;
    if v.required && v.name !in m then
      Fail(MissingRequiredVariable(v.name))
    else
      var x := if v.name in m then m[v.name] else v.default;
      if v.builder.None? then Ok(x) else Ok(build(v.builder.value, x))
  }

  /** A missing mapping behaves exactly like an empty one. */
  lemma ValueFromNoData(v: Var, build: Builders)
    ensures ValueFromDict(v, None, build) == ValueFromDict(v, Some(map[]), build)
    ensures v.required ==> ValueFromDict(v, None, build) == Fail(MissingRequiredVariable(v.name))
    ensures !v.required && v.builder.None? ==> ValueFromDict(v, None, build) == Ok(v.default)
  {
  }

  /** Two data maps that agree on the variable's name give the same value. */
  lemma ValueFromDictLocal(v: Var, d1: Data, d2: Data, build: Builders)
    requires v.name in d1 <==> v.name in d2
    requires v.name in d1 ==> d1[v.name] == d2[v.name]
    ensures ValueFromDict(v, Some(d1), build) == ValueFromDict(v, Some(d2), build)
  {
  }

  /** `__str__`: a shell-style placeholder, `${name:?Required. help}` for a required
      variable and `${name:-default:?help}` otherwise. How Python prints the default
      is taken as the parameter `show`. */
  function Display(v: Var, show: Json -> string): (s: string)
    ensures |s| > |v.name| + 3
    ensures s[..2] == "${" && s[2..2 + |v.name|] == v.name && s[2 + |v.name|] == ':'
    ensures s[|s| - 1] == '}'
    ensures v.required ==> s == "${" + v.name + ":?Required. " + v.helpText + "}"
    ensures !v.required ==> s == "${" + v.name + ":-" + show(v.default) + ":?" + v.helpText + "}"
  {
    if v.required then "${" + v.name + ":?Required. " + v.helpText + "}"
    else "${" + v.name + ":-" + show(v.default) + ":?" + v.helpText + "}"
  }

  /** The prefix of `s` before the first `c` (all of `s` when there is none). */
  function TakeUntil(s: string, c: char): (p: string)
    ensures |p| <= |s| && p == s[..|p|] && c !in p
    ensures |p| < |s| ==> s[|p|] == c
  {
    if |s| == 0 || s[0] == c then "" else [s[0]] + TakeUntil(s[1..], c)
  }

  lemma {:induction false} TakeUntilPrefix(a: string, c: char, b: string)
    requires c !in a
    ensures TakeUntil(a + [c] + b, c) == a
  {
    if |a| > 0 {
      assert (a + [c] + b)[1..] == a[1..] + [c] + b;
      TakeUntilPrefix(a[1..], c, b);
    }
  }

  /** Reading a placeholder back: the name between `${` and the first `:`. */
  function PlaceholderName(s: string): string {
    if |s| < 2 then "" else TakeUntil(s[2..], ':')
  }

  /** Whether the placeholder marks its variable as required (`:?` right after the name). */
  predicate PlaceholderRequired(s: string) {
    var n := PlaceholderName(s);
    |s| > |n| + 3 && s[|n| + 3] == '?'
  }

  /** A placeholder names its variable and tells whether it is required, as long as
      the name itself holds no colon. */
  lemma {:induction false} DisplayReadsBack(v: Var, show: Json -> string)
    requires ':' !in v.name
    ensures PlaceholderName(Display(v, show)) == v.name
    ensures PlaceholderRequired(Display(v, show)) <==> v.required
  {
    var s := Display(v, show);
    var rest := if v.required then "?Required. " + v.helpText + "}"
                else "-" + show(v.default) + ":?" + v.helpText + "}";
    assert s[2..] == v.name + [':'] + rest;
    TakeUntilPrefix(v.name, ':', rest);
  }
}
